=== FILE: README.md ===
# Tensegrity arena and island spots, modelled in Dafny

This project models two pieces of a browser tensegrity-evolution program.

The first is the AssemblyScript simulation arena (`client/assembly/index.ts`).
It carves one flat byte buffer into regions. The regions hold the rendering
output, the joint, interval and face records, a 64-row behaviour table, four
scratch vectors and an age counter. The model covers the bookkeeping around
the floating-point physics:

- the region offsets `init` computes and the pointer arithmetic of every field
  accessor;
- the create calls with their 65535 sentinel;
- the topology lookups and edits: interval lookup, opposite face and opposite
  interval, face laterality, face removal, joint tags and triggering;
- the bubble sort of the behaviour rows and the integer bracket search over them;
- the per-interval phase state machine that every tick runs;
- the summary `iterate` returns.

The second is the hex-grid spot of the island view (`client/src/island/spot.ts`):

- its coordinate order and arithmetic;
- the serialiser that packs land flags into hex digits;
- the vertex and face indices a spot's surface adds to the island mesh;
- its two flags.

Modules:

- `Ints` (ints.dfy): the fixed-width integer types, the 16-bit wrap and the
  32-bit increment.
- `Layout` (layout.dfy): record strides, `init`'s region chain, every pointer
  function, and the proofs that cells stay in their regions and never overlap.
- `Behavior` (behavior.dfy): the behaviour table, `sortVariations`, the setters
  and the bracket search.
- `Arena` (arena.dfy): the records, stores of fixed capacity with a live count,
  `init` and the three create calls.
- `Topology` (topology.dfy): the lookups and edits over live records.
- `Tick` (tick.dfy): the phase machine, one tick, `iterate` and its summary.
- `IslandSpot` (spot.dfy): the spot helpers.

Records are immutable datatypes. A store is a sequence of slots, whose length
is the capacity, plus a count of live records. Slots at or beyond the count
keep what they last held, as the arena's memory does.

The f32 fields are carried as `real` values. The float physics is not
computed; what it produces enters as a parameter:

- for each live interval on a tick: its measured unit vector, span and stress;
- for each live joint on a tick: its new location and velocity;
- for a created interval: the measured span.

The random initial behaviour entries are an input too. The model writes out
every 16-bit wrap that the code relies on. The float formulas the model
does evaluate use exact real arithmetic instead of f32 rounding: the
interpolation weights of the bracket search (`Behavior.InterpolationWeights`),
and the shown stress and the line colour of `iterate` (`Tick.DisplayStress`,
`Tick.LineColor`).

The arena (`Arena`, `Topology`, `Tick`) keeps each store and the behaviour
table as separate values, which is the memory picture of the corrected region
chain (`Layout.InitLayout`). The chain as written overlaps the face records,
the behaviour table and the scratch vectors; `Layout` proves where, and the
first row of "Findings" records it.

## Model

| member | source | states |
|---|---|---|
| Ints.Inc32 | client/assembly/index.ts:131-133 | the age counter's increment agrees with `x + 1` modulo 2^32 |
| Layout.InitLayoutAsWritten | client/assembly/index.ts:52-93 | `init` as written keeps the three capacities and returns `71 J + 75 I + 90 F + 820` bytes |
| Layout.InitLayout | client/assembly/index.ts:56-93 | the corrected region chain keeps the capacities and returns the same `71 J + 75 I + 90 F + 820` bytes |
| Layout.InitLayoutBackToBack | client/assembly/index.ts:65-93 | the 14 regions (lines, colours, midpoints, normals, locations, joints, intervals, faces, behaviour, four scratch vectors, age) start at 0, each where the previous ends, and the last ends at the returned size |
| Layout.InitLayoutAsWrittenBackToBack | client/assembly/index.ts:71-88 | as written, the regions are back to back exactly when `6 F == 768`, i.e. only with 128 faces |
| Layout.Pages | client/assembly/index.ts:94-95 | `(bytes >> 16) + 1` pages of 64 KiB cover the buffer with at most one page to spare |
| Layout.BackToBackRegionsDisjoint | client/assembly/index.ts:65-93 | any two regions laid back to back are disjoint and inside the buffer |
| Layout.JointFieldsFit | client/assembly/index.ts:292-356 | the joint fields at offsets 0, 12, 24, 36, 48, 60, 64, 68, 69 fit the 71-byte stride and do not overlap |
| Layout.JointCellsSeparate | client/assembly/index.ts:310-356 | every field of every joint below capacity lies in the joint region, and distinct (joint, field) cells are disjoint |
| Layout.IntervalFieldsFit | client/assembly/index.ts:384-445 | the interval fields at offsets 0, 1, 3, 5, 7, 19, 23 fit the 27-byte stride and do not overlap |
| Layout.IntervalCellsSeparate | client/assembly/index.ts:399-445 | every field of every interval below capacity lies in the interval region, and distinct cells are disjoint |
| Layout.FaceCellsSeparate | client/assembly/index.ts:517-529 | the three joint-index cells of every face below capacity lie in the face region and are pairwise disjoint across faces |
| Layout.BehaviorCellsSeparate | client/assembly/index.ts:656-684 | the time and variation slots of every entry of the 64 rows lie in the behaviour region and never overlap |
| Layout.LineCellsSeparate | client/assembly/index.ts:497-513 | each interval's line endpoints and colours lie in the line and colour regions, and different intervals' lines do not overlap |
| Layout.FaceVertexCellsSeparate | client/assembly/index.ts:535-545 | each face's midpoint and per-vertex normal and location lie in their regions and never overlap another face's or vertex's |
| Layout.FaceVertexSlotAgreesBelowWrap | client/assembly/index.ts:539-545 | below 21846 faces the 16-bit `faceIndex * 3 + jointNumber` equals the unbounded slot number |
| Layout.FaceVertexSlotAliases | client/assembly/index.ts:539-545 | with 21846 faces, vertex 1 of face 21845 wraps onto vertex 0 of face 0 |
| Layout.FaceVertexSlotAsWritten | client/assembly/index.ts:539-545 | the 16-bit slot number agrees with `faceIndex * 3 + jointNumber` modulo 65536, and equals it while that is below 65536 |
| Layout.FaceVertexSlot | client/assembly/index.ts:539-545 | the unwrapped slot determines its face (`slot / 3`) and vertex (`slot mod 3`), so three slots per face never collide |
| Layout.ScratchInsideBehaviorAsWritten | client/assembly/index.ts:70-93 | as written, with fewer than 120 face slots the four scratch vectors and the age word lie inside the 768 bytes the behaviour accessors address, starting `6 F` bytes into the table |
| Layout.FacesOverBehaviorAsWritten | client/assembly/index.ts:71-88 | as written, each joint index of face `k` for `128 <= k < 256` lies inside behaviour row `(k - 128) / 2` |
| Layout.BehaviorOverlapsScratchAsWritten | client/assembly/index.ts:70-88 | with ten faces, the layout as written puts behaviour row 5 on the first scratch vector |
| Layout.FacesOverlapBehaviorAsWritten | client/assembly/index.ts:71-88 | with 200 faces, the layout as written stores face 128's first joint over behaviour row 0 |
| Behavior.SwapIfLater | client/assembly/index.ts:702-717 | one compare-and-swap keeps the entries as a multiset, orders the pair by time and touches nothing else |
| Behavior.BubblePass | client/assembly/index.ts:702-717 | one inner pass keeps the row's entries as a multiset and leaves the entries before the scan start and after the unsorted bound in place |
| Behavior.Bubble | client/assembly/index.ts:698-722 | the outer loop keeps the row's entries as a multiset and never touches the already sorted suffix |
| Behavior.BubblePassMovesLatestUp | client/assembly/index.ts:701-718 | one pass carries the latest entry to the end of the unsorted prefix and permutes only that prefix |
| Behavior.BubblePassExtendsSorted | client/assembly/index.ts:698-722 | a pass grows the sorted suffix by one entry while keeping the entries |
| Behavior.BubbleSorts | client/assembly/index.ts:698-722 | the remaining passes sort the row by time and keep its entries |
| Behavior.SortVariations | client/assembly/index.ts:698-722 | `sortVariations` returns the row's (time, variation) pairs as a permutation, non-decreasing in time |
| Behavior.InitBehavior | client/assembly/index.ts:96-98 | all 64 rows of three come out sorted by time, each a permutation of its random entries |
| Behavior.SetBehaviorTime | client/assembly/index.ts:678-680 | one entry's time changes, its variation and every other entry stay |
| Behavior.SetBehaviorTimeCanUnsort | client/assembly/index.ts:678-680 | since the setter does not re-sort, one call can leave a sorted row unsorted |
| Behavior.SetBehaviorSpanVariationAsWritten | client/assembly/index.ts:694-696 | as written, the variation's bit pattern lands in the entry's time and the variation is unchanged |
| Behavior.SetBehaviorSpanVariationHitsTime | client/assembly/index.ts:694-696 | setting variation -1 on entry (10, 5) as written yields (65535, 5) |
| Behavior.SetBehaviorSpanVariation | client/assembly/index.ts:682-696 | the corrected setter changes only the variation and so keeps every row's sortedness |
| Behavior.RoleRow | client/assembly/index.ts:745 | the row used is the role's magnitude, positive for a nonzero role |
| Behavior.BracketBefore | client/assembly/index.ts:742-753 | the last entry strictly before the time index, else time 0; on a sorted row no earlier entry is later |
| Behavior.BracketAfterAsWritten | client/assembly/index.ts:754-767 | the loop as written starts one past the row and picks that foreign entry exactly when no row entry but it is after the time index |
| Behavior.BracketAfter | client/assembly/index.ts:754-767 | the lowest-numbered entry strictly after the time index, else 65535; on a sorted row no later entry is earlier |
| Behavior.BracketSearch | client/assembly/index.ts:742-767 | `beforeTime <= timeIndex <= afterTime` and `beforeTime < afterTime`, whatever the row holds; both bounds bracket every row time on a sorted row |
| Behavior.BracketSearchAsWritten | client/assembly/index.ts:742-767 | the search as written, over any three entries at the row's address (also past the table for a role of magnitude 64 or more) and the entry after them, still gives `beforeTime <= timeIndex <= afterTime` and `beforeTime < afterTime` |
| Behavior.InterpolationWeights | client/assembly/index.ts:768-771 | none of the three u16 differences wraps, the divisor is positive, and the weights are non-negative, sum to 1 and place the time index between the bounds |
| Arena.EmptyStore | client/assembly/index.ts:52-55 | a fresh store is valid, empty and has the requested capacity |
| Arena.StoreBelowCapacity | client/assembly/index.ts:295-297 | a store never holds more than `capacity - 1` records |
| Arena.Claim | client/assembly/index.ts:294-298 | a create returns the old count and grows the count by one when `count + 1 < max`; otherwise it returns 65535 and changes nothing |
| Arena.ClaimAllIndices | client/assembly/index.ts:294-298 | successive creates hand out `count, count + 1, ...` and then only the sentinel, and the count stops at `max - 1` |
| Arena.Init | client/assembly/index.ts:52-99 | `init` leaves every store empty, returns `71 J + 75 I + 90 F + 820` and sorts every behaviour row as a permutation of its random entries |
| Arena.CreateJoint | client/assembly/index.ts:294-308 | the new joint sits at `(x, y, z)` at rest with ambient mass and the given tag and laterality; the sentinel case changes nothing; nothing outside the joint store changes |
| Arena.CreateInterval | client/assembly/index.ts:386-397 | the new interval has phase 0, the given role and ends, and the given ideal span when positive, else the measured span and unit vector |
| Arena.CreateFace | client/assembly/index.ts:631-641 | the new face holds the three joint indices; the sentinel case changes nothing |
| Arena.SentinelIsNoIndex | client/assembly/index.ts:7 | every index a create hands out is below 65534, so it can never be mistaken for the sentinel |
| Topology.FindIntervalFrom | client/assembly/index.ts:462-471 | the scan stops at the first interval joining the two joints in either order, or at the count |
| Topology.FindIntervalIndex | client/assembly/index.ts:462-471 | the lowest interval joining the joints in either order; `intervalCountMax` if and only if there is none |
| Topology.FindIntervalIndexSymmetric | client/assembly/index.ts:462-471 | the lookup gives the same answer for `(a, b)` and `(b, a)` |
| Topology.FindOppositeFaceFrom | client/assembly/index.ts:610-629 | the scan skips the face itself and stops at the first face carrying each of its three tags |
| Topology.FindOppositeFaceIndex | client/assembly/index.ts:610-629 | the lowest other live face carrying each of the face's joint tags; `faceCount + 1` if and only if there is none |
| Topology.GetFaceLaterality | client/assembly/index.ts:547-555 | the laterality of the first non-middle joint of the face; middle if and only if all three are middle |
| Topology.RemoveFace | client/assembly/index.ts:643-652 | faces before the dead one stay, later faces move down one slot, the count drops by one, nothing else changes and live faces still name live joints |
| Topology.NextJointTag | client/assembly/index.ts:114-117 | the tag counter grows by one and wraps from 65535 to 0; the new value is returned |
| Topology.IssuedTagsFresh | client/assembly/index.ts:114-117 | while the counter stays below 65536, successive tags count up from it and are pairwise distinct |
| Topology.TriggerInterval | client/assembly/index.ts:473-475 | the interval's phase becomes 1 and nothing else changes |
| Topology.SetIntervalRole | client/assembly/index.ts:407-409 | one interval's role changes and nothing else |
| Topology.FindOppositeIntervalFromAsWritten | client/assembly/index.ts:477-493 | the scan as written stops at the first index other than the queried one, whatever the tags |
| Topology.FindOppositeIntervalIndexAsWritten | client/assembly/index.ts:477-493 | as written, the answer is 0 for any interval but 0, and 1 (or the capacity) for interval 0 |
| Topology.OppositeIntervalIgnoresTags | client/assembly/index.ts:477-493 | with tags 1, 2, 3 and intervals (0, 1) and (1, 2), interval 1's "opposite" as written is interval 0, whose tags differ |
| Topology.FindOppositeIntervalFrom | client/assembly/index.ts:477-493 | the corrected scan stops at the first other interval among whose endpoint tags each of the queried interval's endpoint tags occurs |
| Topology.FindOppositeIntervalIndex | client/assembly/index.ts:477-493 | the lowest other interval such that each endpoint tag of the queried interval occurs among its endpoint tags, as in index.ts:486-488; `intervalCountMax` if and only if there is none |
| Tick.AdvancePhase | client/assembly/index.ts:797-804 | phase 0 is fixed; a nonzero phase becomes `p + step` when that is below 65536, else 0 |
| Tick.IdleStaysIdle | client/assembly/index.ts:797-804 | an interval at phase 0 stays there over any number of ticks |
| Tick.RunningPhase | client/assembly/index.ts:797-804 | a nonzero phase `t` is `t + n step` after `n` ticks while that is below 65536, and 0 from then on |
| Tick.TriggeredTransition | client/assembly/index.ts:797-804 | a triggered phase rises strictly on every tick until its single reset to 0, which happens after exactly `65534 / step + 1` ticks |
| Tick.ElasticStep | client/assembly/index.ts:724-804 | one tick on one interval: the unit vector is re-measured and the phase advances; the stress cache gets the stress, or at phase 1 the measured span for role 0 and no change for other roles; role, ends and ideal span stay |
| Tick.Move | client/assembly/index.ts:856-890 | at the end of a tick a joint has its new location and velocity, zero force and absorbed velocity, ambient mass, and unchanged tag, laterality, gravity and altitude |
| Tick.Tick | client/assembly/index.ts:848-891 | the age grows by one, every live interval steps and every live joint moves; stale slots, faces, table, layout and tag counter stay |
| Tick.Ticks | client/assembly/index.ts:902-904 | a run of ticks keeps the arena valid, its counts, layout, faces, behaviour table and tag counter |
| Tick.TicksPhases | client/assembly/index.ts:901-904 | after any run of ticks each live interval's phase is `PhaseAfter` its start, and its role and ends stay |
| Tick.DisplayStress | client/assembly/index.ts:909-917 | the shown stress is in [-1, 1], 0 at phase 1, stress over `STRESS_MAX` within the limits and clamped beyond them |
| Tick.LineColor | client/assembly/index.ts:918-920 | a line colour has no green, red plus blue is 1.2, blue minus red is 0.8 times the stress, and both lie in [0.2, 1] |
| Tick.Summarize | client/assembly/index.ts:905-926 | one line per live interval from its joints' locations and its shown stress; the result bounds every live phase, is attained, and is 0 if and only if all live phases are 0 |
| Tick.TickCounterAsWritten | client/assembly/index.ts:902 | the u16 counter equals the number of ticks run below 65536 and is back at 0 after 65536 ticks |
| Tick.TickCounterNeverReaches | client/assembly/index.ts:901-904 | the u16 tick counter holds `k mod 65536` after `k` ticks, so a request of 65536 ticks or more never ends |
| Tick.Iterate | client/assembly/index.ts:901-931 | the arena after the requested ticks is the tick-by-tick result; every live phase ends at `PhaseAfter` its start with step 37; the returned maximum bounds every live phase, is the phase of some live interval when it is nonzero, and is 0 if and only if all are 0; each line runs from its interval's alpha joint's location to its omega joint's location in the resulting arena, coloured by its shown stress |
| IslandSpot.Equals | client/src/island/spot.ts:101 | `equals` holds exactly when the coordinate pairs are equal |
| IslandSpot.CoordSort | client/src/island/spot.ts:98 | the result is -1, 0 or 1; -1 when `a` precedes `b` in row-major (`y`, then `x`) order, 1 when `b` precedes `a`, 0 when they are equal |
| IslandSpot.CoordSortIsTotalOrder | client/src/island/spot.ts:98 | the comparator is antisymmetric and transitive, and comparing both ways as non-positive forces equality |
| IslandSpot.Plus | client/src/island/spot.ts:105-107 | subtracting the offset again gives back the original coordinates |
| IslandSpot.Minus | client/src/island/spot.ts:102-104 | adding `b` back to the difference gives `a` |
| IslandSpot.PlusMinusRoundTrip | client/src/island/spot.ts:102-107 | `plus(minus(a, b), b) == a` and `minus(plus(a, b), b) == a` |
| IslandSpot.PadRightTo4 | client/src/island/spot.ts:108 | the result has length `max(|s|, 4)`, keeps `s` as a prefix and appends only `'0'` |
| IslandSpot.NybbleValue | client/src/island/spot.ts:114 | four binary digits parse to `8 b0 + 4 b1 + 2 b2 + b3`, below 16 |
| IslandSpot.HexDigit | client/src/island/spot.ts:114 | `toString(16)` of a nybble is one lower-case hex digit that reads back as the nybble |
| IslandSpot.SpotsToString | client/src/island/spot.ts:109-120 | `ceil(n / 4)` characters, each a lower-case hex digit; empty for no spots |
| IslandSpot.ChunkDigitFlags | client/src/island/spot.ts:110-114 | bit `3 - j` of a chunk's digit is spot `j`'s land flag, and 0 past the chunk's end |
| IslandSpot.SpotsToStringRoundTrip | client/src/island/spot.ts:109-120 | spot `i`'s land flag is bit `3 - i mod 4` of digit `i div 4`, and every padding bit is 0 |
| IslandSpot.AddSurfaceGeometry | client/src/island/spot.ts:56-75 | 7 vertices and 6 faces are appended; face `a` is `(7 index + 6, 7 index + a, 7 index + (a + 1) mod 6)`; the spot records the six consecutive old face counts, each the position of its face |
| IslandSpot.SurfaceFanCloses | client/src/island/spot.ts:63-73 | added in index order, each face uses the centre and two distinct rim vertices of the new hexagon, and the six faces close into a fan |
| IslandSpot.SurfaceKeepsFacesInRange | client/src/island/spot.ts:56-75 | adding a spot's surface in index order keeps every face naming an existing vertex |
| IslandSpot.CanBeNewGotch | client/src/island/spot.ts:48-50 | a spot can start a gotch exactly when it is no gotch's centre and some gotch is adjacent |
| IslandSpot.FindOwned | client/src/island/spot.ts:53 | `find` with the ownership test returns a gotch of the list that is owned; nothing if and only if no gotch is owned |
| IslandSpot.UpdateFreeFlag | client/src/island/spot.ts:52-54 | `free` becomes true exactly when no gotch the spot belongs to is owned; nothing else changes |

## Behaviour of the code worth noting

- A nonzero phase that passes 65535 becomes 0 (index.ts:799-802). It does not
  wrap modulo 65536.
- A store holds at most `max - 1` records. Each create refuses once
  `count + 1 >= max` (index.ts:295, 387, 632).
- The opposite-face test is containment: each of the face's tags occurs among
  the other face's tags. It is not equality of tag sets (index.ts:620-623).
- The behaviour setters do not re-sort a row (index.ts:678-696), so rows are
  sorted only after `init`.
- The bracket search does not wrap around the row's ends. Missing bounds
  default to times 0 and 65535 (index.ts:742-767).
- The face region comes before the behaviour region in the chain.
- The opposite-interval test is containment too: each endpoint tag of the
  queried interval occurs among the candidate's (index.ts:486-488), so an
  interval tagged (5, 5) matches one tagged (5, 7) but not the reverse.

## Findings

| source | as written | input that shows it | evidently intended | confidence | as-written member | corrected member |
|---|---|---|---|---|---|---|
| client/assembly/index.ts:71-88 | the chain adds `behaviorSize` after the face offset and `facesSize` after the behaviour offset, so the two region sizes are swapped | `init(10, 10, 10)`: behaviour row 5 lands on the first scratch vector; `init(10, 10, 200)`: face 128 is stored over behaviour row 0 | the face region sized by the faces, the behaviour region by the table | not executed; high | Layout.InitLayoutAsWritten, Layout.InitLayoutAsWrittenBackToBack, Layout.ScratchInsideBehaviorAsWritten, Layout.FacesOverBehaviorAsWritten, Layout.BehaviorOverlapsScratchAsWritten, Layout.FacesOverlapBehaviorAsWritten | Layout.InitLayout, Layout.InitLayoutBackToBack, Arena.Init, Arena.CreateFace, Topology.RemoveFace, Tick.Tick, Tick.Ticks, Tick.Iterate |
| client/assembly/index.ts:477-493 | both own tags are read from the alpha joint, and the candidate's tags from the queried interval instead of the candidate | joints tagged 1, 2, 3 with intervals (0, 1) and (1, 2): the opposite of interval 1 comes out as interval 0 | the lowest other interval whose endpoint tags match in either order | not executed; high | Topology.FindOppositeIntervalIndexAsWritten, Topology.OppositeIntervalIgnoresTags | Topology.FindOppositeIntervalIndex |
| client/assembly/index.ts:694-696 | the variation is stored at `behaviorTimePtr`, overwriting the entry's time | setting variation -1 on entry (10, 5) leaves (65535, 5) | the variation slot changes and the time stays | not executed; high | Behavior.SetBehaviorSpanVariationAsWritten, Behavior.SetBehaviorSpanVariationHitsTime | Behavior.SetBehaviorSpanVariation |
| client/assembly/index.ts:756-758 | the second bracket loop starts at entry `VARIATION_COUNT`, one past the row, reading the next row's first entry | row times (10, 20, 30), next row starting at time 40, time index 35: the bound is taken from the next row | start at entry `VARIATION_COUNT - 1` | not executed; high | Behavior.BracketAfterAsWritten, Behavior.BracketSearchAsWritten | Behavior.BracketAfter, Behavior.BracketSearch |
| client/assembly/index.ts:539-545 | `faceIndex * 3 + jointNumber` is u16 arithmetic and wraps before it is scaled to a byte offset | 21846 faces: vertex 1 of face 21845 shares slot 0 with vertex 0 of face 0 | the slot number computed without wrapping | not executed; medium | Layout.FaceVertexSlotAsWritten, Layout.FaceVertexSlotAliases | Layout.FaceVertexSlot, Layout.FaceVertexCellsSeparate |
| client/assembly/index.ts:902 | the tick counter is a u16 compared with a `usize` tick count | `iterate(65536)`: the counter wraps to 0 before reaching 65536, so the loop never ends | a counter as wide as the tick count | not executed; high | Tick.TickCounterAsWritten, Tick.TickCounterNeverReaches | Tick.Iterate |

## Left out

- Float physics is not modelled: the vector operations (index.ts:197-288),
  `calculateSpan`, the spring force and mass accumulation in
  `elasticBehavior`, `smoothVelocity`, `exertJointPhysics`, the ground-straddle
  gravity blend in `tick`, and `centralize`. Their results enter as
  `IntervalPhysics` and `JointMotion` parameters.
- `outputFaceGeometry` and `pushNormalTowardsJoint` are float geometry.
  `createFace` and `removeFace` call them, but the model keeps only the
  pointers they write through.
- `interpolateCurrentSpan`'s span value, `getBehaviorSpanVariation` and
  `getFaceAverageIdealSpan` are f32 arithmetic. The model keeps the integer
  bracket search, the exact-real weights' bounds and which value lands in the stress
  cache.
- Reading the role-0 span snapshot back as the interpolation's starting span
  (index.ts:736) is not modelled; Tick.ElasticStep models where it is stored.
  The snapshot is read back once, at phase 38. During that tick
  `elasticBehavior` overwrites it with the spring stress, so from phase 75 on
  `interpolateCurrentSpan` reads the stress instead.
- `removeInterval` (index.ts:455-460) is never called. Its byte loop ignores
  the interval region's offset, so it does not model a compaction.
- `Math.random` in `initBehavior` is replaced by the `raw` table input.
  `memory.grow` is reduced to the page count. The host logging imports
  (index.ts:1-5) are left out.
- The trivial exported getters `joints`, `intervals`, `faces`, `age`,
  `getJointTag`, `getJointLaterality` and `getFaceJointIndex` are record field
  reads in the model.
- Tick.Tick: requires that every live interval names live joints. The source
  does not check this, and the model needs it so that the joint forces land on
  live joints.
- Tick.TicksPhases: the same requirement as Tick.Tick, for the same reason.
- Tick.Summarize: the same requirement as Tick.Tick, for the same reason.
- Tick.Iterate: the same requirement as Tick.Tick, for the same reason.
- Arena.Init: builds on the corrected region chain. As written, stores,
  table and scratch vectors overlap (index.ts:71-88), so the separate stores
  of the model do not hold for the program as written.
- Arena.CreateFace: its promise that only the face store changes holds on the
  corrected chain only. As written, face 128 and later land on behaviour rows,
  and with fewer than 120 face slots the scratch vectors that
  `outputFaceGeometry` writes (index.ts:557, 598-599, 639) lie in behaviour rows.
- Topology.RemoveFace: its promise that only the face store changes holds on
  the corrected chain only. As written, the `outputFaceGeometry` call for every
  moved face (index.ts:649) writes scratch vectors that lie in behaviour rows
  when there are fewer than 120 face slots.
- Tick.Ticks: inherits Tick.Tick's corrected-chain frame, so its promise that
  the behaviour table stays holds on the corrected chain only.
- Tick.Tick: its promise that the behaviour table stays holds on the corrected
  chain only. As written, with fewer than 120 face slots the scratch writes of
  `smoothVelocity`, the gravity scratch and the age land on behaviour rows.
- Tick.Iterate: inherits Tick.Tick's corrected-chain frame.
- Behavior.BracketSearch: requires a role of magnitude below 64, because it
  reads the row from the table. For larger roles the source reads memory past
  the table; Behavior.BracketSearchAsWritten covers that case over any entries.
- Tick.DisplayStress: divides and clamps in exact real arithmetic, not f32.
- Tick.LineColor: computes `0.6 - 0.4 s` and `0.6 + 0.4 s` in exact real
  arithmetic. In f32 two tiny stresses can give the same colour.
- Topology.FindOppositeFaceIndex: requires that live faces name live joints.
  The source reads whatever memory an out-of-range joint index points at.
- Topology.GetFaceLaterality: the same requirement as FindOppositeFaceIndex,
  for the same reason.
- Topology.FindOppositeIntervalIndex: requires that live intervals name live
  joints, for the same reason.
- Topology.FindOppositeIntervalIndexAsWritten: requires that live intervals name
  live joints, like the corrected lookup, although its answer never depends on
  the tags it reads.
- Topology.FindOppositeIntervalFromAsWritten: the same requirement, for the
  same reason.
- Behavior.InterpolationWeights: divides in exact real arithmetic, not f32. Its
  promise that the after weight times the time span gives back the elapsed time
  holds for exact quotients only; f32 division rounds.
- Topology.RemoveFace, Topology.TriggerInterval, Topology.SetIntervalRole:
  require a live index. The source writes to any slot it is given.
- Topology.IssuedTagsFresh: proves fresh tags only while the counter stays
  below 65536. Past that, `NextJointTag` wraps to 0 and tags repeat.
- `sortSpotsOnCoord` is `coordSort` applied to two spots' coordinates.
- The spot constructor's scaled coordinates, `HEXAGON_POINTS`, vertex normals
  and colours, and `addHangerGeometry` are float three.js geometry. Vertex
  positions enter `AddSurfaceGeometry` as opaque values.
- Coordinates are grid integers. TypeScript numbers that are not integers are
  out of scope.
- `gotch.ts` is not part of this model. A gotch is reduced to its optional
  owner, and an owner counts as set when it is present and non-empty.

=== FILE: arena.dfy ===
/**
  The arena's records and stores. Each store is a fixed sequence of slots (its
  capacity) and a count of live records; slots at or beyond the count keep
  whatever they last held, as the arena's memory does. Float fields are carried
  as opaque `real` values.
 */
module Arena {
  import opened Ints
  import opened Layout
  import opened Behavior

  datatype Vec3 = Vec3(x: real, y: real, z: real)

  const ZERO: Vec3 := Vec3(0.0, 0.0, 0.0)
  const AMBIENT_JOINT_MASS: real := 0.1

  const BILATERAL_MIDDLE: u8 := 0
  const BILATERAL_RIGHT: u8 := 1
  const BILATERAL_LEFT: u8 := 2

  datatype Joint = Joint(
    location: Vec3, velocity: Vec3, absorbVelocity: Vec3, force: Vec3, gravity: Vec3,
    intervalMass: real, altitude: real, laterality: u8, tag: u16)

  datatype Interval = Interval(
    role: i8, alpha: u16, omega: u16, timeIndex: u16,
    unit: Vec3, stress: real, idealSpan: real)

  datatype Face = Face(joint0: u16, joint1: u16, joint2: u16) {
    /** `getFaceJointIndex(face, n)` */
    function JointAt(n: nat): u16
      requires n < 3
    {
      if n == 0 then joint0 else if n == 1 then joint1 else joint2
    }
  }

  const ZERO_JOINT: Joint := Joint(ZERO, ZERO, ZERO, ZERO, ZERO, 0.0, 0.0, 0, 0)
  const ZERO_INTERVAL: Interval := Interval(0, 0, 0, 0, ZERO, 0.0, 0.0)
  const ZERO_FACE: Face := Face(0, 0, 0)

  /**
    A store of records of one kind: `|slots|` is its capacity (a u16) and `count`
    the number of live records.
   */
  datatype Store<T> = Store(slots: seq<T>, count: nat) {
    /**
      The capacity fits 16 bits, and since a create call refuses once
      `count + 1 >= capacity`, a non-empty store always keeps one slot free.
     */
    predicate Valid() {
      |slots| < 0x1_0000 && (count == 0 || count < |slots|)
    }
  }

  function EmptyStore<T>(capacity: u16, blank: T): (s: Store<T>)
    ensures s.Valid() && s.count == 0 && |s.slots| == capacity
  {
    Store(seq(capacity, _ => blank), 0)
  }

  /** A valid store never holds more than `capacity - 1` records. */
  lemma StoreBelowCapacity<T>(s: Store<T>)
    requires s.Valid() && |s.slots| > 0
    ensures s.count <= |s.slots| - 1
  {
  }

  /**
    The shared shape of `createJoint`, `createInterval` and `createFace`: when
    `count + 1 < capacity` the record `build(old slot)` goes into slot `count`,
    the count grows by one and the old count is returned; otherwise the sentinel
    65535 is returned and the store is unchanged.
   */
  function Claim<T>(s: Store<T>, build: T -> T): (r: (u16, Store<T>))
    requires s.Valid()
    ensures r.1.Valid() && |r.1.slots| == |s.slots|
    ensures r.0 == ERROR <==> s.count + 1 >= |s.slots|
    ensures r.0 == ERROR ==> r.1 == s
    ensures r.0 != ERROR ==>
      && r.0 == s.count
      && r.1.count == s.count + 1
      && r.1.slots[r.0] == build(s.slots[r.0])
      && forall k :: 0 <= k < |s.slots| && k != r.0 ==> r.1.slots[k] == s.slots[k]
  {
    if s.count + 1 >= |s.slots| then (ERROR, s)
    else (s.count, Store(s.slots[s.count := build(s.slots[s.count])], s.count + 1))
  }

  /** A run of create calls on one store, returning every index handed out. */
  function ClaimAll<T>(s: Store<T>, builds: seq<T -> T>): (r: (seq<u16>, Store<T>))
    requires s.Valid()
    ensures |r.0| == |builds| && r.1.Valid() && |r.1.slots| == |s.slots|
    decreases |builds|
  {
    if |builds| == 0 then ([], s)
    else
      var first := Claim(s, builds[0]);
      var rest := ClaimAll(first.1, builds[1..]);
      ([first.0] + rest.0, rest.1)
  }

  /**
    Creating records one after another hands out `count, count + 1, ...` while
    `count + 1 < capacity`, and the sentinel for every call after that; the count
    stops at `capacity - 1`.
   */
  lemma {:induction false} ClaimAllIndices<T>(s: Store<T>, builds: seq<T -> T>)
    requires s.Valid()
    ensures var r := ClaimAll(s, builds);
      && (forall k :: 0 <= k < |builds| ==>
            r.0[k] == if s.count + k + 1 < |s.slots| then s.count + k else ERROR)
      && r.1.count == if s.count + |builds| + 1 < |s.slots| then s.count + |builds|
                      else if s.count + 1 < |s.slots| then |s.slots| - 1 else s.count
    decreases |builds|
  {
    if |builds| > 0 {
      var first := Claim(s, builds[0]);
      ClaimAllIndices(first.1, builds[1..]);
      var rest := ClaimAll(first.1, builds[1..]);
      assert ClaimAll(s, builds).0 == [first.0] + rest.0;
      if first.0 == ERROR {
        assert first.1 == s;
      }
    }
  }

  /** The whole arena: its layout, the three stores, the behaviour table, the tag counter and the age. */
  datatype Arena = Arena(
    layout: Layout,
    joints: Store<Joint>,
    intervals: Store<Interval>,
    faces: Store<Face>,
    behavior: seq<Row>,
    jointTagCount: u16,
    age: i32)
  {
    predicate Valid() {
      && joints.Valid() && intervals.Valid() && faces.Valid()
      && |joints.slots| == layout.jointMax
      && |intervals.slots| == layout.intervalMax
      && |faces.slots| == layout.faceMax
      && WellShaped(behavior)
    }

    /** Every live interval's endpoints name live joints. */
    predicate IntervalsReferenceJoints() {
      forall i :: 0 <= i < intervals.count && i < |intervals.slots| ==>
        intervals.slots[i].alpha < joints.count && intervals.slots[i].omega < joints.count
    }

    /** Every live face's three joints are live joints. */
    predicate FacesReferenceJoints() {
      forall f :: 0 <= f < faces.count && f < |faces.slots| ==>
        faces.slots[f].joint0 < joints.count && faces.slots[f].joint1 < joints.count
        && faces.slots[f].joint2 < joints.count
    }
  }

  /**
    `init(joints, intervals, faces)`: the layout, three empty stores of the given
    capacities, and the behaviour table made from the random entries `raw`
    with every row sorted. The returned byte count is `layout.bytes`.
   */
  function Init(jointMax: u16, intervalMax: u16, faceMax: u16, raw: seq<Row>): (a: Arena)
    requires WellShaped(raw)
    ensures a.Valid()
    ensures a.joints.count == 0 && a.intervals.count == 0 && a.faces.count == 0
    ensures a.layout == InitLayout(jointMax, intervalMax, faceMax)
    ensures a.layout.jointMax == jointMax && a.layout.intervalMax == intervalMax && a.layout.faceMax == faceMax
    ensures a.layout.bytes == TotalBytes(jointMax, intervalMax, faceMax)
    ensures forall r :: 0 <= r < |a.behavior| ==> SortedByTime(a.behavior[r]) && multiset(a.behavior[r]) == multiset(raw[r])
  {
    Arena(
      InitLayout(jointMax, intervalMax, faceMax),
      EmptyStore(jointMax, ZERO_JOINT),
      EmptyStore(intervalMax, ZERO_INTERVAL),
      EmptyStore(faceMax, ZERO_FACE),
      InitBehavior(raw),
      0,
      0)
  }

  /**
    `createJoint`: a joint at `(x, y, z)` at rest, with zero velocity, force,
    gravity and absorbed velocity, the ambient mass, and the given laterality and
    tag; its altitude cache keeps what the slot held.
   */
  function CreateJoint(a: Arena, tag: u16, laterality: u8, x: real, y: real, z: real): (r: (u16, Arena))
    requires a.Valid()
    ensures r.1.Valid()
    ensures r.1 == a.(joints := r.1.joints)
    ensures r.0 == ERROR <==> a.joints.count + 1 >= a.layout.jointMax
    ensures r.0 == ERROR ==> r.1 == a
    ensures r.0 != ERROR ==>
      && r.0 == a.joints.count && r.1.joints.count == a.joints.count + 1
      && var j := r.1.joints.slots[r.0];
      && j.location == Vec3(x, y, z)
      && j.velocity == ZERO && j.force == ZERO && j.gravity == ZERO && j.absorbVelocity == ZERO
      && j.intervalMass == AMBIENT_JOINT_MASS
      && j.laterality == laterality && j.tag == tag
      && forall k :: 0 <= k < |a.joints.slots| && k != r.0 ==> r.1.joints.slots[k] == a.joints.slots[k]
  {
    var c := Claim(a.joints, (prev: Joint) =>
      Joint(Vec3(x, y, z), ZERO, ZERO, ZERO, ZERO, AMBIENT_JOINT_MASS, prev.altitude, laterality, tag));
    (c.0, a.(joints := c.1))
  }

  /** What `calculateSpan` measures between two joints: the unit vector and the length. */
  datatype Measure = Measure(unit: Vec3, span: real)

  /**
    `createInterval`: phase 0, the given role and endpoints, and the given ideal
    span when it is positive; otherwise the span `measured` between the
    endpoints, whose unit vector is cached too. The stress cache keeps what the
    slot held.
   */
  function CreateInterval(a: Arena, role: i8, alpha: u16, omega: u16, idealSpan: real, measured: Measure): (r: (u16, Arena))
    requires a.Valid()
    ensures r.1.Valid()
    ensures r.1 == a.(intervals := r.1.intervals)
    ensures r.0 == ERROR <==> a.intervals.count + 1 >= a.layout.intervalMax
    ensures r.0 == ERROR ==> r.1 == a
    ensures r.0 != ERROR ==>
      && r.0 == a.intervals.count && r.1.intervals.count == a.intervals.count + 1
      && var iv := r.1.intervals.slots[r.0];
      && iv.role == role && iv.alpha == alpha && iv.omega == omega && iv.timeIndex == 0
      && (idealSpan > 0.0 ==> iv.idealSpan == idealSpan && iv.unit == a.intervals.slots[r.0].unit)
      && (idealSpan <= 0.0 ==> iv.idealSpan == measured.span && iv.unit == measured.unit)
      && iv.stress == a.intervals.slots[r.0].stress
      && forall k :: 0 <= k < |a.intervals.slots| && k != r.0 ==> r.1.intervals.slots[k] == a.intervals.slots[k]
  {
    var c := Claim(a.intervals, (prev: Interval) =>
      if idealSpan > 0.0 then Interval(role, alpha, omega, 0, prev.unit, prev.stress, idealSpan)
      else Interval(role, alpha, omega, 0, measured.unit, prev.stress, measured.span));
    (c.0, a.(intervals := c.1))
  }

  /** `createFace`: the three joint indices in winding order. */
  function CreateFace(a: Arena, joint0: u16, joint1: u16, joint2: u16): (r: (u16, Arena))
    requires a.Valid()
    ensures r.1.Valid()
    ensures r.1 == a.(faces := r.1.faces)
    ensures r.0 == ERROR <==> a.faces.count + 1 >= a.layout.faceMax
    ensures r.0 == ERROR ==> r.1 == a
    ensures r.0 != ERROR ==>
      && r.0 == a.faces.count && r.1.faces.count == a.faces.count + 1
      && r.1.faces.slots[r.0] == Face(joint0, joint1, joint2)
      && forall k :: 0 <= k < |a.faces.slots| && k != r.0 ==> r.1.faces.slots[k] == a.faces.slots[k]
  {
    var c := Claim(a.faces, (_: Face) => Face(joint0, joint1, joint2));
    (c.0, a.(faces := c.1))
  }

  /** The sentinel is never a valid index: every index handed out is below 65534. */
  lemma SentinelIsNoIndex<T>(s: Store<T>, build: T -> T)
    requires s.Valid()
    ensures Claim(s, build).0 != ERROR ==> Claim(s, build).0 < ERROR - 1
  {
  }
}

=== FILE: behavior.dfy ===
/**
  The behaviour table: 64 rows of three (time, span variation) entries, each row
  bubble-sorted by time when it is initialised, and the integer bracket search
  that finds the entries on either side of an interval's current time index.
 */
module Behavior {
  import opened Ints
  import opened Layout

  /** One table entry: a time in the 16-bit cycle and a signed span variation. */
  datatype Entry = Entry(time: u16, variation: i16)

  type Row = seq<Entry>

  /** The 64 rows of three entries each. */
  predicate WellShaped(table: seq<Row>) {
    |table| == ROLE_INDEX_MAX && forall r :: 0 <= r < |table| ==> |table[r]| == VARIATION_COUNT
  }

  predicate SortedByTime(row: Row) {
    forall i, j :: 0 <= i < j < |row| ==> row[i].time <= row[j].time
  }

  // ---------------------------------------------------------------------------
  // sortVariations

  /** One compare-and-swap of entries `scan` and `scan + 1`, swapping only when strictly out of order. */
  function SwapIfLater(row: Row, scan: nat): (r: Row)
    requires scan + 1 < |row|
    ensures |r| == |row|
    ensures multiset(r) == multiset(row)
    ensures r[scan].time <= r[scan + 1].time
    ensures forall k :: 0 <= k < |row| && k != scan && k != scan + 1 ==> r[k] == row[k]
    ensures r[scan + 1].time == if row[scan].time > row[scan + 1].time then row[scan].time else row[scan + 1].time
    ensures multiset(r[..scan + 2]) == multiset(row[..scan + 2])
  {
    if row[scan].time > row[scan + 1].time then
      var r := row[scan := row[scan + 1]][scan + 1 := row[scan]];
      assert r[..scan + 2] == row[..scan] + [row[scan + 1], row[scan]];
      assert row[..scan + 2] == row[..scan] + [row[scan], row[scan + 1]];
      r
    else
      row
  }

  /** The inner `for (scan = from; scan < unsorted; scan++)` loop of one bubble pass. */
  function BubblePass(row: Row, scan: nat, unsorted: nat): (r: Row)
    requires scan <= unsorted < |row|
    ensures |r| == |row|
    ensures multiset(r) == multiset(row)
    ensures forall k :: 0 <= k < scan ==> r[k] == row[k]
    ensures forall k :: unsorted < k < |row| ==> r[k] == row[k]
    decreases unsorted - scan
  {
    if scan == unsorted then row else BubblePass(SwapIfLater(row, scan), scan + 1, unsorted)
  }

  /**
    The outer loop: decrement `unsorted`, run a pass up to it, stop once it
    reaches zero.
   */
  function Bubble(row: Row, unsorted: nat): (r: Row)
    requires 1 <= unsorted <= |row|
    ensures |r| == |row|
    ensures multiset(r) == multiset(row)
    ensures forall k :: unsorted <= k < |row| ==> r[k] == row[k]
    decreases unsorted
  {
    var pass := BubblePass(row, 0, unsorted - 1);
    if unsorted - 1 == 0 then pass else Bubble(pass, unsorted - 1)
  }

  /** The entries from `u` on are in time order. */
  predicate SortedFrom(row: Row, u: nat) {
    forall i, j :: u <= i < j < |row| ==> row[i].time <= row[j].time
  }

  /** No entry before `u` is later than an entry from `u` on. */
  predicate SplitAt(row: Row, u: nat) {
    forall i, j :: 0 <= i < u <= j < |row| ==> row[i].time <= row[j].time
  }

  /**
    A pass from `scan` up to `unsorted` carries the latest entry seen so far to
    position `unsorted`, permutes only the entries up to there and leaves the rest.
   */
  lemma {:induction false} BubblePassMovesLatestUp(row: Row, scan: nat, unsorted: nat)
    requires scan <= unsorted < |row|
    requires forall k :: 0 <= k <= scan ==> row[k].time <= row[scan].time
    ensures var r := BubblePass(row, scan, unsorted);
      && (forall k :: unsorted < k < |row| ==> r[k] == row[k])
      && multiset(r[..unsorted + 1]) == multiset(row[..unsorted + 1])
      && forall k :: 0 <= k <= unsorted ==> r[k].time <= r[unsorted].time
    decreases unsorted - scan
  {
    if scan < unsorted {
      var next := SwapIfLater(row, scan);
      assert multiset(next[..unsorted + 1]) == multiset(row[..unsorted + 1]) by {
        assert next[..unsorted + 1] == next[..scan + 2] + next[scan + 2..unsorted + 1];
        assert row[..unsorted + 1] == row[..scan + 2] + row[scan + 2..unsorted + 1];
        assert next[scan + 2..unsorted + 1] == row[scan + 2..unsorted + 1];
      }
      BubblePassMovesLatestUp(next, scan + 1, unsorted);
    }
  }

  /** An entry of a prefix stays in the prefix after the prefix is permuted. */
  lemma PermutedPrefixEntry(row: Row, pass: Row, u: nat, i: nat) returns (i': nat)
    requires u <= |row| && u <= |pass| && i < u
    requires multiset(pass[..u]) == multiset(row[..u])
    ensures i' < u && row[i'] == pass[i]
  {
    assert pass[i] in multiset(pass[..u]) by {
      assert pass[..u][i] == pass[i];
    }
    assert pass[i] in row[..u];
    i' :| 0 <= i' < u && row[..u][i'] == pass[i];
  }

  /** A permutation of the prefix before `unsorted` keeps that prefix separated from the rest. */
  lemma PermutedPrefixStaysSplit(row: Row, pass: Row, unsorted: nat)
    requires unsorted <= |row| == |pass|
    requires SplitAt(row, unsorted)
    requires multiset(pass[..unsorted]) == multiset(row[..unsorted])
    requires forall k :: unsorted <= k < |row| ==> pass[k] == row[k]
    ensures SplitAt(pass, unsorted)
  {
    forall i, j | 0 <= i < unsorted <= j < |pass|
      ensures pass[i].time <= pass[j].time
    {
      var i' := PermutedPrefixEntry(row, pass, unsorted, i);
      assert row[i'].time <= row[j].time;
    }
  }

  /**
    After the pass up to `unsorted - 1`, the sorted and separated part grows by
    one entry and the pass's result is a permutation of the row.
   */
  lemma BubblePassExtendsSorted(row: Row, unsorted: nat)
    requires 1 <= unsorted <= |row|
    requires SortedFrom(row, unsorted)
    requires SplitAt(row, unsorted)
    ensures var pass := BubblePass(row, 0, unsorted - 1);
      && multiset(pass) == multiset(row)
      && SortedFrom(pass, unsorted - 1)
      && SplitAt(pass, unsorted - 1)
  {
    var u := unsorted - 1;
    var pass := BubblePass(row, 0, u);
    BubblePassMovesLatestUp(row, 0, u);
    PermutedPrefixPermutes(row, pass, unsorted);
    PermutedPrefixStaysSplit(row, pass, unsorted);
    assert forall k :: 0 <= k <= u ==> pass[k].time <= pass[u].time;
    GrowSorted(row, pass, unsorted);
  }

  /** Permuting a prefix and keeping the rest permutes the whole row. */
  lemma PermutedPrefixPermutes(row: Row, pass: Row, unsorted: nat)
    requires unsorted <= |row| == |pass|
    requires multiset(pass[..unsorted]) == multiset(row[..unsorted])
    requires forall k :: unsorted <= k < |row| ==> pass[k] == row[k]
    ensures multiset(pass) == multiset(row)
  {
    assert row == row[..unsorted] + row[unsorted..];
    assert pass == pass[..unsorted] + pass[unsorted..];
    assert pass[unsorted..] == row[unsorted..];
  }

  /** Adding the latest entry of the prefix to the front of the sorted part keeps it sorted and separated. */
  lemma GrowSorted(row: Row, pass: Row, unsorted: nat)
    requires 1 <= unsorted <= |row| == |pass|
    requires SortedFrom(row, unsorted)
    requires SplitAt(pass, unsorted)
    requires forall k :: unsorted <= k < |row| ==> pass[k] == row[k]
    requires forall k :: 0 <= k <= unsorted - 1 ==> pass[k].time <= pass[unsorted - 1].time
    ensures SortedFrom(pass, unsorted - 1)
    ensures SplitAt(pass, unsorted - 1)
  {
  }

  /**
    Once the entries from `unsorted` on are sorted and no earlier entry is later
    than any of them, the remaining passes sort the whole row by time and keep
    its entries.
   */
  lemma {:induction false} BubbleSorts(row: Row, unsorted: nat)
    requires 1 <= unsorted <= |row|
    requires SortedFrom(row, unsorted)
    requires SplitAt(row, unsorted)
    ensures var r := Bubble(row, unsorted);
      |r| == |row| && SortedByTime(r) && multiset(r) == multiset(row)
    decreases unsorted
  {
    var pass := BubblePass(row, 0, unsorted - 1);
    BubblePassExtendsSorted(row, unsorted);
    if unsorted - 1 > 0 {
      BubbleSorts(pass, unsorted - 1);
    } else {
      assert SortedFrom(pass, 0);
    }
  }

  /**
    `sortVariations`: the bubble sort of one row by time. The result is sorted and
    holds exactly the original (time, variation) pairs.
   */
  function SortVariations(row: Row): (r: Row)
    requires 1 <= |row|
    ensures |r| == |row|
    ensures SortedByTime(r)
    ensures multiset(r) == multiset(row)
  {
    BubbleSorts(row, |row|);
    Bubble(row, |row|)
  }

  /**
    `init`'s loop of `initBehavior` over all 64 rows. The random times and
    variations are the input `raw`; every row comes out sorted and a permutation
    of its raw entries.
   */
  function InitBehavior(raw: seq<Row>): (table: seq<Row>)
    requires WellShaped(raw)
    ensures WellShaped(table)
    ensures forall r :: 0 <= r < |table| ==> SortedByTime(table[r])
    ensures forall r :: 0 <= r < |table| ==> multiset(table[r]) == multiset(raw[r])
  {
    seq(|raw|, r requires 0 <= r < |raw| => SortVariations(raw[r]))
  }

  // ---------------------------------------------------------------------------
  // Setters

  /** `setBehaviorTime`: overwrite one entry's time, without re-sorting the row. */
  function SetBehaviorTime(table: seq<Row>, roleIndex: u8, variationIndex: u8, time: u16): (t: seq<Row>)
    requires WellShaped(table) && roleIndex < ROLE_INDEX_MAX && variationIndex < VARIATION_COUNT
    ensures WellShaped(t)
    ensures t[roleIndex][variationIndex] == Entry(time, table[roleIndex][variationIndex].variation)
    ensures forall r, v :: 0 <= r < |t| && 0 <= v < |t[r]| && (r, v) != (roleIndex as int, variationIndex as int) ==>
      t[r][v] == table[r][v]
  {
    table[roleIndex := table[roleIndex][variationIndex := table[roleIndex][variationIndex].(time := time)]]
  }

  /** Because no setter re-sorts, a single `setBehaviorTime` can leave a row unsorted. */
  lemma SetBehaviorTimeCanUnsort(table: seq<Row>)
    requires WellShaped(table)
    requires table[1] == [Entry(100, 0), Entry(200, 0), Entry(300, 0)]
    ensures SortedByTime(table[1])
    ensures !SortedByTime(SetBehaviorTime(table, 1, 0, 400)[1])
  {
    var t: seq<Row> := SetBehaviorTime(table, 1, 0, 400);
    assert t[1][0].time == 400 && t[1][1].time == 200;
  }

  /**
    `setBehaviorSpanVariation` as written: it stores the 16-bit variation at the
    entry's TIME address, so the time becomes the variation's bit pattern read as
    unsigned and the variation is left as it was.
   */
  function SetBehaviorSpanVariationAsWritten(table: seq<Row>, roleIndex: u8, variationIndex: u8, variation: i16): (t: seq<Row>)
    requires WellShaped(table) && roleIndex < ROLE_INDEX_MAX && variationIndex < VARIATION_COUNT
    ensures WellShaped(t)
    ensures t[roleIndex][variationIndex].variation == table[roleIndex][variationIndex].variation
    ensures t[roleIndex][variationIndex].time == Wrap16(variation)
    ensures forall r, v :: 0 <= r < |t| && 0 <= v < |t[r]| && (r, v) != (roleIndex as int, variationIndex as int) ==>
      t[r][v] == table[r][v]
  {
    SetBehaviorTime(table, roleIndex, variationIndex, Wrap16(variation))
  }

  /** Setting a variation of -1 as written leaves the variation alone and moves the entry to time 65535. */
  lemma SetBehaviorSpanVariationHitsTime(table: seq<Row>)
    requires WellShaped(table)
    requires table[2][0] == Entry(10, 5)
    ensures SetBehaviorSpanVariationAsWritten(table, 2, 0, -1)[2][0] == Entry(65535, 5)
  {
  }

  /** `setBehaviorSpanVariation` as intended: overwrite one entry's variation and nothing else. */
  function SetBehaviorSpanVariation(table: seq<Row>, roleIndex: u8, variationIndex: u8, variation: i16): (t: seq<Row>)
    requires WellShaped(table) && roleIndex < ROLE_INDEX_MAX && variationIndex < VARIATION_COUNT
    ensures WellShaped(t)
    ensures t[roleIndex][variationIndex] == Entry(table[roleIndex][variationIndex].time, variation)
    ensures forall r, v :: 0 <= r < |t| && 0 <= v < |t[r]| && (r, v) != (roleIndex as int, variationIndex as int) ==>
      t[r][v] == table[r][v]
    ensures forall r :: 0 <= r < |t| ==> (SortedByTime(t[r]) <==> SortedByTime(table[r]))
  {
    var t := table[roleIndex := table[roleIndex][variationIndex := table[roleIndex][variationIndex].(variation := variation)]];
    assert forall r, i :: 0 <= r < |t| && 0 <= i < |t[r]| ==> t[r][i].time == table[r][i].time;
    t
  }

  // ---------------------------------------------------------------------------
  // The bracket search of interpolateCurrentSpan

  /** Which entry a bound came from; `Default` is the initial value the loop starts with. */
  datatype Pick = Default | At(entry: nat)

  /** The two times around the current time index and the entries they came from. */
  datatype Bracket = Bracket(beforeTime: u16, before: Pick, afterTime: u16, after: Pick)

  /** The table row used for a nonzero role: the role's magnitude. */
  function RoleRow(role: i8): (r: nat)
    ensures r == if role < 0 then -(role as int) else role as int
    ensures role != 0 ==> r > 0
  {
    if role > 0 then role as int else -(role as int)
  }

  /**
    The first loop: the last entry whose time is strictly before `timeIndex`,
    else time 0 and the default.
   */
  method BracketBefore(row: Row, timeIndex: u16) returns (beforeTime: u16, before: Pick)
    requires |row| == VARIATION_COUNT
    ensures beforeTime <= timeIndex
    ensures before == Default ==> beforeTime == 0 && forall v :: 0 <= v < |row| ==> row[v].time >= timeIndex
    ensures before.At? ==> before.entry < |row| && row[before.entry].time == beforeTime < timeIndex
    ensures before.At? ==> forall v :: before.entry < v < |row| ==> row[v].time >= timeIndex
    ensures SortedByTime(row) ==> forall v :: 0 <= v < |row| && row[v].time < timeIndex ==> row[v].time <= beforeTime
  {
    beforeTime := 0;
    before := Default;
    var variationNumber := 0;
    while variationNumber < VARIATION_COUNT
      invariant variationNumber <= VARIATION_COUNT
      invariant beforeTime <= timeIndex
      invariant before == Default ==> beforeTime == 0 && forall v :: 0 <= v < variationNumber ==> row[v].time >= timeIndex
      invariant before.At? ==> before.entry < variationNumber && row[before.entry].time == beforeTime < timeIndex
      invariant before.At? ==> forall v :: before.entry < v < variationNumber ==> row[v].time >= timeIndex
    {
      var behaviorTime := row[variationNumber].time;
      if behaviorTime < timeIndex {
        beforeTime := behaviorTime;
        before := At(variationNumber);
      }
      variationNumber := variationNumber + 1;
    }
  }

  /**
    The second loop as written: it starts at entry number VARIATION_COUNT, one
    past the row, so it also reads `beyond`, the entry stored right after the row.
    It keeps the lowest-numbered entry whose time is strictly after `timeIndex`,
    else 65535 and the default; `beyond` is picked exactly when no entry of the
    row is after `timeIndex` but `beyond` is.
   */
  method BracketAfterAsWritten(row: Row, beyond: Entry, timeIndex: u16) returns (afterTime: u16, after: Pick)
    requires |row| == VARIATION_COUNT
    ensures afterTime >= timeIndex
    ensures after == Default ==> afterTime == 65535
    ensures after == Default ==>
      beyond.time <= timeIndex && forall v :: 0 <= v < |row| ==> row[v].time <= timeIndex
    ensures after.At? ==> after.entry <= |row| && (row + [beyond])[after.entry].time == afterTime > timeIndex
    ensures after.At? ==> forall v :: 0 <= v < after.entry ==> (row + [beyond])[v].time <= timeIndex
    ensures after == At(VARIATION_COUNT) <==>
      (forall v :: 0 <= v < |row| ==> row[v].time <= timeIndex) && beyond.time > timeIndex
  {
    var entries := row + [beyond];
    afterTime := 65535;
    after := Default;
    var variationNumber := VARIATION_COUNT;
    while true
      invariant 0 <= variationNumber <= VARIATION_COUNT
      invariant afterTime >= timeIndex
      invariant after == Default ==> afterTime == 65535 && forall v :: variationNumber < v <= VARIATION_COUNT ==> entries[v].time <= timeIndex
      invariant after.At? ==> variationNumber < after.entry <= VARIATION_COUNT && entries[after.entry].time == afterTime > timeIndex
      invariant after.At? ==> forall v :: variationNumber < v < after.entry ==> entries[v].time <= timeIndex
      decreases variationNumber
    {
      var behaviorTime := entries[variationNumber].time;
      if behaviorTime > timeIndex {
        afterTime := behaviorTime;
        after := At(variationNumber);
      }
      if variationNumber == 0 {
        break;
      }
      variationNumber := variationNumber - 1;
    }
    assert entries[VARIATION_COUNT] == beyond;
    assert forall v :: 0 <= v < |row| ==> entries[v] == row[v];
  }

  /**
    The second loop as intended: from the last entry of the row down to the
    first, keeping the lowest-numbered entry strictly after `timeIndex`, else
    65535 and the default.
   */
  method BracketAfter(row: Row, timeIndex: u16) returns (afterTime: u16, after: Pick)
    requires |row| == VARIATION_COUNT
    ensures afterTime >= timeIndex
    ensures after == Default ==> afterTime == 65535 && forall v :: 0 <= v < |row| ==> row[v].time <= timeIndex
    ensures after.At? ==> after.entry < |row| && row[after.entry].time == afterTime > timeIndex
    ensures after.At? ==> forall v :: 0 <= v < after.entry ==> row[v].time <= timeIndex
    ensures SortedByTime(row) ==> forall v :: 0 <= v < |row| && row[v].time > timeIndex ==> afterTime <= row[v].time
  {
    afterTime := 65535;
    after := Default;
    var variationNumber := VARIATION_COUNT - 1;
    while true
      invariant 0 <= variationNumber < VARIATION_COUNT
      invariant afterTime >= timeIndex
      invariant after == Default ==> afterTime == 65535 && forall v :: variationNumber < v < VARIATION_COUNT ==> row[v].time <= timeIndex
      invariant after.At? ==> variationNumber < after.entry < VARIATION_COUNT && row[after.entry].time == afterTime > timeIndex
      invariant after.At? ==> forall v :: variationNumber < v < after.entry ==> row[v].time <= timeIndex
      decreases variationNumber
    {
      var behaviorTime := row[variationNumber].time;
      if behaviorTime > timeIndex {
        afterTime := behaviorTime;
        after := At(variationNumber);
      }
      if variationNumber == 0 {
        break;
      }
      variationNumber := variationNumber - 1;
    }
  }

  /**
    The bracket search of `interpolateCurrentSpan` for a nonzero role, with the
    second loop kept inside the row: `beforeTime <= timeIndex <= afterTime` and
    `beforeTime < afterTime`, whatever the row holds.
   */
  method BracketSearch(table: seq<Row>, role: i8, timeIndex: u16) returns (b: Bracket)
    requires WellShaped(table) && role != 0 && RoleRow(role) < ROLE_INDEX_MAX
    ensures b.beforeTime <= timeIndex <= b.afterTime
    ensures b.beforeTime < b.afterTime
    ensures b.before.At? ==> b.before.entry < VARIATION_COUNT && table[RoleRow(role)][b.before.entry].time == b.beforeTime
    ensures b.after.At? ==> b.after.entry < VARIATION_COUNT && table[RoleRow(role)][b.after.entry].time == b.afterTime
    ensures SortedByTime(table[RoleRow(role)]) ==> forall v :: 0 <= v < VARIATION_COUNT ==>
      var t := table[RoleRow(role)][v].time; (t < timeIndex ==> t <= b.beforeTime) && (t > timeIndex ==> b.afterTime <= t)
  {
    var row := table[RoleRow(role)];
    var beforeTime, before := BracketBefore(row, timeIndex);
    var afterTime, after := BracketAfter(row, timeIndex);
    b := Bracket(beforeTime, before, afterTime, after);
  }

  /**
    The bracket search as written, over whatever three entries sit at the row's
    address (past the table for a role of magnitude 64 or more) and the entry
    after them: the bounds still bracket the time index and are strictly ordered,
    so the interpolation never divides by zero.
   */
  method BracketSearchAsWritten(row: Row, beyond: Entry, timeIndex: u16) returns (b: Bracket)
    requires |row| == VARIATION_COUNT
    ensures b.beforeTime <= timeIndex <= b.afterTime
    ensures b.beforeTime < b.afterTime
    ensures b.before.At? ==> b.before.entry < VARIATION_COUNT && row[b.before.entry].time == b.beforeTime
    ensures b.after.At? ==> b.after.entry <= VARIATION_COUNT && (row + [beyond])[b.after.entry].time == b.afterTime
  {
    var beforeTime, before := BracketBefore(row, timeIndex);
    var afterTime, after := BracketAfterAsWritten(row, beyond, timeIndex);
    b := Bracket(beforeTime, before, afterTime, after);
  }

  /** The two interpolation weights `(after weight, before weight)`. */
  datatype Weights = Weights(afterWeight: real, beforeWeight: real)

  /** Splitting `d` at `x` gives two non-negative fractions that sum to one. */
  lemma FractionsOfSpan(x: real, d: real)
    requires 0.0 <= x <= d && 0.0 < d
    ensures 0.0 <= x / d && 0.0 <= (d - x) / d
    ensures x / d + (d - x) / d == 1.0
    ensures (x / d) * d == x
  {
    assert x / d + (d - x) / d == (x + (d - x)) / d;
  }

  /**
    The weights computed from the bracket with 16-bit subtractions: none of the
    three differences wraps, the divisor is positive, and the weights are
    non-negative, sum to one and place `timeIndex` between the two times.
   */
  function InterpolationWeights(b: Bracket, timeIndex: u16): (w: Weights)
    requires b.beforeTime <= timeIndex <= b.afterTime && b.beforeTime < b.afterTime
    ensures Wrap16(b.afterTime - b.beforeTime) == b.afterTime - b.beforeTime > 0
    ensures Wrap16(timeIndex - b.beforeTime) == timeIndex - b.beforeTime
    ensures Wrap16(b.afterTime - timeIndex) == b.afterTime - timeIndex
    ensures 0.0 <= w.afterWeight && 0.0 <= w.beforeWeight
    ensures w.afterWeight + w.beforeWeight == 1.0
    ensures w.afterWeight * (b.afterTime - b.beforeTime) as real == (timeIndex - b.beforeTime) as real
  {
    var timeSpan := Wrap16(b.afterTime - b.beforeTime) as real;
    var sinceBefore := Wrap16(timeIndex - b.beforeTime) as real;
    var untilAfter := Wrap16(b.afterTime - timeIndex) as real;
    assert untilAfter == timeSpan - sinceBefore;
    FractionsOfSpan(sinceBefore, timeSpan);
    Weights(sinceBefore / timeSpan, untilAfter / timeSpan)
  }
}

=== FILE: ints.dfy ===
/**
  Fixed-width integers of the AssemblyScript arena, as subsets of `int`.
  Wrap-around is written out explicitly wherever the arena code relies on it.
 */
module Ints {

  type u8 = x: int | 0 <= x < 0x100
  type u16 = x: int | 0 <= x < 0x1_0000
  type i8 = x: int | -0x80 <= x < 0x80
  type i16 = x: int | -0x8000 <= x < 0x8000
  type i32 = x: int | -0x8000_0000 <= x < 0x8000_0000

  /** The sentinel index a create call returns when its store is full. */
  const ERROR: u16 := 65535

  /** Truncation of an intermediate value to 16 bits, as a store into a `u16` does. */
  function Wrap16(x: int): (r: u16)
    ensures 0 <= x < 0x1_0000 ==> r == x
    ensures 0x1_0000 <= x < 0x2_0000 ==> r == x - 0x1_0000
    ensures (x - r) % 0x1_0000 == 0
  {
    x % 0x1_0000
  }

  /** Two's-complement wrap of a 32-bit signed increment. */
  function Inc32(x: i32): (r: i32)
    ensures (r - (x + 1)) % 0x1_0000_0000 == 0
  {
    if x == 0x7FFF_FFFF then -0x8000_0000 else x + 1
  }
}

=== FILE: layout.dfy ===
/**
  The byte layout of the simulation arena: the record strides, the region
  offsets computed once by `init`, and the pointer arithmetic of every record
  and field accessor. Everything here is natural-number arithmetic; the model
  of the records themselves lives in module Arena.
 */
module Layout {
  import opened Ints

  const FLOAT_SIZE: nat := 4
  const VECTOR_SIZE: nat := FLOAT_SIZE * 3
  const ROLE_SIZE: nat := 1
  const JOINT_NAME_SIZE: nat := 2
  const INDEX_SIZE: nat := 2
  const SPAN_VARIATION_SIZE: nat := 2
  const AGE_SIZE: nat := 4
  const VARIATION_COUNT: nat := 3
  const ROLE_INDEX_MAX: nat := 64
  const PAGE_SIZE: nat := 0x1_0000

  const JOINT_SIZE: nat := VECTOR_SIZE * 5 + ROLE_SIZE + JOINT_NAME_SIZE + FLOAT_SIZE * 2
  const INTERVAL_SIZE: nat := ROLE_SIZE + INDEX_SIZE * 3 + VECTOR_SIZE + FLOAT_SIZE * 2
  const FACE_SIZE: nat := INDEX_SIZE * 3
  const LINE_SIZE: nat := VECTOR_SIZE * 2
  const BEHAVIOR_ENTRY_SIZE: nat := INDEX_SIZE + SPAN_VARIATION_SIZE
  const BEHAVIOR_SIZE: nat := BEHAVIOR_ENTRY_SIZE * VARIATION_COUNT

  /** The capacities `init` was given and every offset it published, plus the total size. */
  datatype Layout = Layout(
    jointMax: u16, intervalMax: u16, faceMax: u16,
    lineLocation: nat, lineColor: nat,
    faceMidpoint: nat, faceNormal: nat, faceLocation: nat,
    joint: nat, interval: nat, face: nat, behavior: nat,
    projection: nat, alphaProjection: nat, omegaProjection: nat, grav: nat, age: nat,
    bytes: nat)

  datatype Region = Region(start: nat, size: nat) {
    function End(): nat { start + size }
  }

  /** `[a, a + sa)` and `[b, b + sb)` share no byte. */
  predicate Disjoint(a: nat, sa: nat, b: nat, sb: nat) {
    a + sa <= b || b + sb <= a
  }

  /** The regions of a layout in address order, each with the size its contents need. */
  function Regions(L: Layout): seq<Region> {
    [ Region(L.lineLocation, L.intervalMax * LINE_SIZE),
      Region(L.lineColor, L.intervalMax * LINE_SIZE),
      Region(L.faceMidpoint, L.faceMax * VECTOR_SIZE),
      Region(L.faceNormal, L.faceMax * 3 * VECTOR_SIZE),
      Region(L.faceLocation, L.faceMax * 3 * VECTOR_SIZE),
      Region(L.joint, L.jointMax * JOINT_SIZE),
      Region(L.interval, L.intervalMax * INTERVAL_SIZE),
      Region(L.face, L.faceMax * FACE_SIZE),
      Region(L.behavior, ROLE_INDEX_MAX * BEHAVIOR_SIZE),
      Region(L.projection, VECTOR_SIZE),
      Region(L.alphaProjection, VECTOR_SIZE),
      Region(L.omegaProjection, VECTOR_SIZE),
      Region(L.grav, VECTOR_SIZE),
      Region(L.age, AGE_SIZE) ]
  }

  /** The regions start at 0, each starts where the previous ends, and the last ends at `bytes`. */
  predicate BackToBack(rs: seq<Region>, bytes: nat) {
    && |rs| > 0
    && rs[0].start == 0
    && (forall k :: 0 <= k < |rs| - 1 ==> rs[k].End() == rs[k + 1].start)
    && rs[|rs| - 1].End() == bytes
  }

  /** The size formula the host recomputes from the same three capacities. */
  function TotalBytes(joints: nat, intervals: nat, faces: nat): nat {
    71 * joints + 75 * intervals + 90 * faces + 820
  }

  /**
    `init` as written: the chain of additions assigns the face region the size of
    the behaviour table and the behaviour region the size of the face records.
   */
  function InitLayoutAsWritten(joints: u16, intervals: u16, faces: u16): (r: Layout)
    ensures r.jointMax == joints && r.intervalMax == intervals && r.faceMax == faces
    ensures r.bytes == TotalBytes(joints, intervals, faces)
  {
    var intervalLinesSize := intervals * VECTOR_SIZE * 2;
    var intervalColorsSize := intervalLinesSize;
    var faceVectorsSize := faces * VECTOR_SIZE;
    var faceJointVectorsSize := faceVectorsSize * 3;
    var jointsSize := joints * JOINT_SIZE;
    var intervalsSize := intervals * INTERVAL_SIZE;
    var facesSize := faces * FACE_SIZE;
    var behaviorSize := ROLE_INDEX_MAX * BEHAVIOR_SIZE;
    var lineLocation := 0;
    var lineColor := lineLocation + intervalLinesSize;
    var faceMidpoint := lineColor + intervalColorsSize;
    var faceNormal := faceMidpoint + faceVectorsSize;
    var faceLocation := faceNormal + faceJointVectorsSize;
    var joint := faceLocation + faceJointVectorsSize;
    var interval := joint + jointsSize;
    var face := interval + intervalsSize;
    var behavior := face + behaviorSize;
    var projection := behavior + facesSize;
    var alphaProjection := projection + VECTOR_SIZE;
    var omegaProjection := alphaProjection + VECTOR_SIZE;
    var grav := omegaProjection + VECTOR_SIZE;
    var age := grav + VECTOR_SIZE;
    Layout(joints, intervals, faces, lineLocation, lineColor, faceMidpoint, faceNormal,
           faceLocation, joint, interval, face, behavior, projection, alphaProjection,
           omegaProjection, grav, age, age + AGE_SIZE)
  }

  /** `init` with the face and behaviour region sizes in their intended places. */
  function InitLayout(joints: u16, intervals: u16, faces: u16): (r: Layout)
    ensures r.jointMax == joints && r.intervalMax == intervals && r.faceMax == faces
    ensures r.bytes == TotalBytes(joints, intervals, faces)
  {
    var intervalLinesSize := intervals * VECTOR_SIZE * 2;
    var intervalColorsSize := intervalLinesSize;
    var faceVectorsSize := faces * VECTOR_SIZE;
    var faceJointVectorsSize := faceVectorsSize * 3;
    var jointsSize := joints * JOINT_SIZE;
    var intervalsSize := intervals * INTERVAL_SIZE;
    var facesSize := faces * FACE_SIZE;
    var behaviorSize := ROLE_INDEX_MAX * BEHAVIOR_SIZE;
    var lineLocation := 0;
    var lineColor := lineLocation + intervalLinesSize;
    var faceMidpoint := lineColor + intervalColorsSize;
    var faceNormal := faceMidpoint + faceVectorsSize;
    var faceLocation := faceNormal + faceJointVectorsSize;
    var joint := faceLocation + faceJointVectorsSize;
    var interval := joint + jointsSize;
    var face := interval + intervalsSize;
    var behavior := face + facesSize;
    var projection := behavior + behaviorSize;
    var alphaProjection := projection + VECTOR_SIZE;
    var omegaProjection := alphaProjection + VECTOR_SIZE;
    var grav := omegaProjection + VECTOR_SIZE;
    var age := grav + VECTOR_SIZE;
    Layout(joints, intervals, faces, lineLocation, lineColor, faceMidpoint, faceNormal,
           faceLocation, joint, interval, face, behavior, projection, alphaProjection,
           omegaProjection, grav, age, age + AGE_SIZE)
  }

  /** `init` places every region exactly where the previous one ends. */
  lemma InitLayoutBackToBack(joints: u16, intervals: u16, faces: u16)
    ensures var L := InitLayout(joints, intervals, faces);
      BackToBack(Regions(L), L.bytes)
  {
    var L := InitLayout(joints, intervals, faces);
    var rs := Regions(L);
    assert rs[0].End() == rs[1].start;
    assert rs[1].End() == rs[2].start;
    assert rs[2].End() == rs[3].start;
    assert rs[3].End() == rs[4].start;
    assert rs[4].End() == rs[5].start;
    assert rs[5].End() == rs[6].start;
    assert rs[6].End() == rs[7].start;
    assert rs[7].End() == rs[8].start;
    assert rs[8].End() == rs[9].start;
    assert forall k :: 9 <= k < 13 ==> rs[k].End() == rs[k + 1].start;
  }

  /**
    As written, the regions are back to back only in the one case where the face
    records happen to need exactly as many bytes as the behaviour table.
   */
  lemma InitLayoutAsWrittenBackToBack(joints: u16, intervals: u16, faces: u16)
    ensures var L := InitLayoutAsWritten(joints, intervals, faces);
      BackToBack(Regions(L), L.bytes) <==> faces * FACE_SIZE == ROLE_INDEX_MAX * BEHAVIOR_SIZE
  {
    var L := InitLayoutAsWritten(joints, intervals, faces);
    var rs := Regions(L);
    if faces * FACE_SIZE == ROLE_INDEX_MAX * BEHAVIOR_SIZE {
      assert rs[0].End() == rs[1].start;
      assert rs[1].End() == rs[2].start;
      assert rs[2].End() == rs[3].start;
      assert rs[3].End() == rs[4].start;
      assert rs[4].End() == rs[5].start;
      assert rs[5].End() == rs[6].start;
      assert rs[6].End() == rs[7].start;
      assert rs[7].End() == rs[8].start;
      assert rs[8].End() == rs[9].start;
      assert forall k :: 9 <= k < 13 ==> rs[k].End() == rs[k + 1].start;
    } else {
      assert rs[7].End() != rs[8].start;
    }
  }

  /** The number of 64 KiB pages `init` grows the memory by: `(bytes >> 16) + 1`. */
  function Pages(bytes: nat): (r: nat)
    ensures bytes < r * PAGE_SIZE <= bytes + PAGE_SIZE
  {
    bytes / PAGE_SIZE + 1
  }

  /** Regions laid back to back never overlap, whichever two are taken. */
  lemma {:induction false} BackToBackRegionsDisjoint(rs: seq<Region>, bytes: nat, k: nat, l: nat)
    requires BackToBack(rs, bytes)
    requires k < l < |rs|
    ensures rs[k].End() <= rs[l].start
    ensures rs[l].End() <= bytes
    decreases l - k, |rs| - l
  {
    if k + 1 < l {
      BackToBackRegionsDisjoint(rs, bytes, k + 1, l);
    } else if l + 1 < |rs| {
      BackToBackRegionsDisjoint(rs, bytes, k + 1, l + 1);
    }
  }

  // ---------------------------------------------------------------------------
  // Strided records

  /** Field `[a, a + sa)` of record `i` of stride `stride` ends inside the first `n` records. */
  lemma StrideCellFits(stride: nat, n: nat, i: nat, a: nat, sa: nat)
    requires i < n && a + sa <= stride
    ensures i * stride + a + sa <= n * stride
  {
    assert (i + 1) * stride <= n * stride by {
      assert n * stride == (i + 1) * stride + (n - i - 1) * stride;
    }
  }

  /** Fields of two different records never overlap when each field fits its stride. */
  lemma StrideCellsApart(stride: nat, i: nat, a: nat, sa: nat, j: nat, b: nat, sb: nat)
    requires i != j && a + sa <= stride && b + sb <= stride
    ensures Disjoint(i * stride + a, sa, j * stride + b, sb)
  {
    if i < j {
      StrideOrdered(stride, i, j);
    } else {
      StrideOrdered(stride, j, i);
    }
  }

  /** Record `i` ends no later than record `j` begins. */
  lemma StrideOrdered(stride: nat, i: nat, j: nat)
    requires i < j
    ensures i * stride + stride <= j * stride
  {
    var k: nat := j - i - 1;
    assert j * stride == i * stride + stride + k * stride;
  }

  // ---------------------------------------------------------------------------
  // Joints

  datatype JointField =
    Location | Velocity | AbsorbVelocity | Force | Gravity | IntervalMass | Altitude | Laterality | Tag

  function JointFieldOffset(f: JointField): nat {
    match f
    case Location => 0
    case Velocity => VECTOR_SIZE
    case AbsorbVelocity => VECTOR_SIZE * 2
    case Force => VECTOR_SIZE * 3
    case Gravity => VECTOR_SIZE * 4
    case IntervalMass => VECTOR_SIZE * 5
    case Altitude => VECTOR_SIZE * 5 + FLOAT_SIZE
    case Laterality => VECTOR_SIZE * 5 + FLOAT_SIZE * 2
    case Tag => VECTOR_SIZE * 5 + FLOAT_SIZE * 2 + ROLE_SIZE
  }

  function JointFieldSize(f: JointField): nat {
    match f
    case Location | Velocity | AbsorbVelocity | Force | Gravity => VECTOR_SIZE
    case IntervalMass | Altitude => FLOAT_SIZE
    case Laterality => ROLE_SIZE
    case Tag => JOINT_NAME_SIZE
  }

  function JointPtr(L: Layout, jointIndex: u16): nat {
    L.joint + jointIndex * JOINT_SIZE
  }

  function JointFieldPtr(L: Layout, jointIndex: u16, f: JointField): nat {
    JointPtr(L, jointIndex) + JointFieldOffset(f)
  }

  /** Every joint field fits the 71-byte stride and no two fields of a record overlap. */
  lemma JointFieldsFit(f: JointField, g: JointField)
    ensures JointFieldOffset(f) + JointFieldSize(f) <= JOINT_SIZE
    ensures f != g ==> Disjoint(JointFieldOffset(f), JointFieldSize(f), JointFieldOffset(g), JointFieldSize(g))
  {
  }

  /**
    Every field of every joint below the capacity lies inside the joint region,
    and two different (joint, field) cells share no byte.
   */
  lemma JointCellsSeparate(L: Layout, i: u16, f: JointField, j: u16, g: JointField)
    requires i < L.jointMax && j < L.jointMax
    ensures Regions(L)[5].start <= JointFieldPtr(L, i, f)
    ensures JointFieldPtr(L, i, f) + JointFieldSize(f) <= Regions(L)[5].End()
    ensures (i, f) != (j, g) ==>
      Disjoint(JointFieldPtr(L, i, f), JointFieldSize(f), JointFieldPtr(L, j, g), JointFieldSize(g))
  {
    JointFieldsFit(f, g);
    StrideCellFits(JOINT_SIZE, L.jointMax, i, JointFieldOffset(f), JointFieldSize(f));
    if i != j {
      StrideCellsApart(JOINT_SIZE, i, JointFieldOffset(f), JointFieldSize(f), j, JointFieldOffset(g), JointFieldSize(g));
    }
  }

  // ---------------------------------------------------------------------------
  // Intervals

  datatype IntervalField = Role | Alpha | Omega | TimeIndex | Unit | Stress | IdealSpan

  function IntervalFieldOffset(f: IntervalField): nat {
    match f
    case Role => 0
    case Alpha => ROLE_SIZE
    case Omega => ROLE_SIZE + INDEX_SIZE
    case TimeIndex => ROLE_SIZE + INDEX_SIZE * 2
    case Unit => ROLE_SIZE + INDEX_SIZE * 3
    case Stress => ROLE_SIZE + INDEX_SIZE * 3 + VECTOR_SIZE
    case IdealSpan => ROLE_SIZE + INDEX_SIZE * 3 + VECTOR_SIZE + FLOAT_SIZE
  }

  function IntervalFieldSize(f: IntervalField): nat {
    match f
    case Role => ROLE_SIZE
    case Alpha | Omega | TimeIndex => INDEX_SIZE
    case Unit => VECTOR_SIZE
    case Stress | IdealSpan => FLOAT_SIZE
  }

  function IntervalPtr(L: Layout, intervalIndex: u16): nat {
    L.interval + intervalIndex * INTERVAL_SIZE
  }

  function IntervalFieldPtr(L: Layout, intervalIndex: u16, f: IntervalField): nat {
    IntervalPtr(L, intervalIndex) + IntervalFieldOffset(f)
  }

  /** Every interval field fits the 27-byte stride and no two fields of a record overlap. */
  lemma IntervalFieldsFit(f: IntervalField, g: IntervalField)
    ensures IntervalFieldOffset(f) + IntervalFieldSize(f) <= INTERVAL_SIZE
    ensures f != g ==>
      Disjoint(IntervalFieldOffset(f), IntervalFieldSize(f), IntervalFieldOffset(g), IntervalFieldSize(g))
  {
  }

  /**
    Every field of every interval below the capacity lies inside the interval region,
    and two different (interval, field) cells share no byte.
   */
  lemma IntervalCellsSeparate(L: Layout, i: u16, f: IntervalField, j: u16, g: IntervalField)
    requires i < L.intervalMax && j < L.intervalMax
    ensures Regions(L)[6].start <= IntervalFieldPtr(L, i, f)
    ensures IntervalFieldPtr(L, i, f) + IntervalFieldSize(f) <= Regions(L)[6].End()
    ensures (i, f) != (j, g) ==>
      Disjoint(IntervalFieldPtr(L, i, f), IntervalFieldSize(f), IntervalFieldPtr(L, j, g), IntervalFieldSize(g))
  {
    IntervalFieldsFit(f, g);
    StrideCellFits(INTERVAL_SIZE, L.intervalMax, i, IntervalFieldOffset(f), IntervalFieldSize(f));
    if i != j {
      StrideCellsApart(INTERVAL_SIZE, i, IntervalFieldOffset(f), IntervalFieldSize(f),
                       j, IntervalFieldOffset(g), IntervalFieldSize(g));
    }
  }

  // ---------------------------------------------------------------------------
  // Faces

  function FacePtr(L: Layout, faceIndex: u16): nat {
    L.face + faceIndex * FACE_SIZE
  }

  /** Where `getFaceJointIndex` and `setFaceJointIndex` read and write joint number `n`. */
  function FaceJointPtr(L: Layout, faceIndex: u16, n: nat): nat {
    FacePtr(L, faceIndex) + n * INDEX_SIZE
  }

  /**
    Each of the three joint indices of every face below the capacity lies inside
    the face region, and two different (face, joint number) cells share no byte.
   */
  lemma FaceCellsSeparate(L: Layout, i: u16, n: nat, j: u16, m: nat)
    requires i < L.faceMax && j < L.faceMax && n < 3 && m < 3
    ensures Regions(L)[7].start <= FaceJointPtr(L, i, n)
    ensures FaceJointPtr(L, i, n) + INDEX_SIZE <= Regions(L)[7].End()
    ensures (i, n) != (j, m) ==> Disjoint(FaceJointPtr(L, i, n), INDEX_SIZE, FaceJointPtr(L, j, m), INDEX_SIZE)
  {
    StrideCellFits(FACE_SIZE, L.faceMax, i, n * INDEX_SIZE, INDEX_SIZE);
    if i != j {
      StrideCellsApart(FACE_SIZE, i, n * INDEX_SIZE, INDEX_SIZE, j, m * INDEX_SIZE, INDEX_SIZE);
    }
  }

  // ---------------------------------------------------------------------------
  // Behaviour table

  function BehaviorTimePtr(L: Layout, roleIndex: u16, variationIndex: u8): nat {
    L.behavior + roleIndex * BEHAVIOR_SIZE + variationIndex * (INDEX_SIZE + SPAN_VARIATION_SIZE)
  }

  function BehaviorSpanVariationPtr(L: Layout, roleIndex: u16, variationIndex: u8): nat {
    L.behavior + roleIndex * BEHAVIOR_SIZE + variationIndex * (INDEX_SIZE + SPAN_VARIATION_SIZE) + INDEX_SIZE
  }

  /** The time slot (`variation == false`) or the variation slot of one table entry. */
  function BehaviorCellPtr(L: Layout, roleIndex: u16, variationIndex: u8, variation: bool): nat {
    if variation then BehaviorSpanVariationPtr(L, roleIndex, variationIndex)
    else BehaviorTimePtr(L, roleIndex, variationIndex)
  }

  /**
    Both slots of every entry of every one of the 64 rows lie inside the behaviour
    region, and two different (row, entry, slot) cells share no byte.
   */
  lemma BehaviorCellsSeparate(L: Layout, r: u16, v: u8, x: bool, s: u16, w: u8, y: bool)
    requires r < ROLE_INDEX_MAX && s < ROLE_INDEX_MAX && v < VARIATION_COUNT && w < VARIATION_COUNT
    ensures Regions(L)[8].start <= BehaviorCellPtr(L, r, v, x)
    ensures BehaviorCellPtr(L, r, v, x) + INDEX_SIZE <= Regions(L)[8].End()
    ensures (r, v, x) != (s, w, y) ==>
      Disjoint(BehaviorCellPtr(L, r, v, x), INDEX_SIZE, BehaviorCellPtr(L, s, w, y), INDEX_SIZE)
  {
    var a := if x then INDEX_SIZE else 0;
    var b := if y then INDEX_SIZE else 0;
    StrideCellFits(BEHAVIOR_ENTRY_SIZE, VARIATION_COUNT, v, a, INDEX_SIZE);
    StrideCellFits(BEHAVIOR_ENTRY_SIZE, VARIATION_COUNT, w, b, INDEX_SIZE);
    StrideCellFits(BEHAVIOR_SIZE, ROLE_INDEX_MAX, r, v * BEHAVIOR_ENTRY_SIZE + a, INDEX_SIZE);
    if r != s {
      StrideCellsApart(BEHAVIOR_SIZE, r, v * BEHAVIOR_ENTRY_SIZE + a, INDEX_SIZE, s, w * BEHAVIOR_ENTRY_SIZE + b, INDEX_SIZE);
    } else if v != w {
      StrideCellsApart(BEHAVIOR_ENTRY_SIZE, v, a, INDEX_SIZE, w, b, INDEX_SIZE);
    }
  }

  // ---------------------------------------------------------------------------
  // Rendering output

  /** Interval lines are written from offset 0: the code adds no `lineLocationOffset`. */
  function OutputAlphaLocationPtr(intervalIndex: u16): nat {
    intervalIndex * LINE_SIZE
  }

  function OutputOmegaLocationPtr(intervalIndex: u16): nat {
    intervalIndex * LINE_SIZE + VECTOR_SIZE
  }

  function OutputAlphaColorPtr(L: Layout, intervalIndex: u16): nat {
    L.lineColor + intervalIndex * LINE_SIZE
  }

  function OutputOmegaColorPtr(L: Layout, intervalIndex: u16): nat {
    L.lineColor + intervalIndex * LINE_SIZE + VECTOR_SIZE
  }

  function OutputMidpointPtr(L: Layout, faceIndex: u16): nat {
    L.faceMidpoint + faceIndex * VECTOR_SIZE
  }

  /**
    The per-vertex slot number `faceIndex * 3 + jointNumber` as written: it is
    computed in 16 bits and wraps before it is widened.
   */
  function FaceVertexSlotAsWritten(faceIndex: u16, jointNumber: u16): (r: u16)
    ensures (r - (faceIndex * 3 + jointNumber)) % 0x1_0000 == 0
    ensures faceIndex * 3 + jointNumber < 0x1_0000 ==> r == faceIndex * 3 + jointNumber
  {
    Wrap16(faceIndex * 3 + jointNumber)
  }

  /**
    The per-vertex slot number without the 16-bit wrap: three consecutive slots
    per face, so a slot names exactly one (face, vertex) pair.
   */
  function FaceVertexSlot(faceIndex: u16, jointNumber: nat): (r: nat)
    ensures jointNumber < 3 ==> r / 3 == faceIndex && r % 3 == jointNumber
  {
    faceIndex * 3 + jointNumber
  }

  function OutputNormalPtr(L: Layout, faceIndex: u16, jointNumber: nat): nat {
    L.faceNormal + FaceVertexSlot(faceIndex, jointNumber) * VECTOR_SIZE
  }

  function OutputLocationPtr(L: Layout, faceIndex: u16, jointNumber: nat): nat {
    L.faceLocation + FaceVertexSlot(faceIndex, jointNumber) * VECTOR_SIZE
  }

  /** Below 21846 faces the 16-bit slot number never wraps, so it agrees with the wide one. */
  lemma FaceVertexSlotAgreesBelowWrap(faceMax: u16, faceIndex: u16, jointNumber: u16)
    requires faceIndex < faceMax <= 21845 && jointNumber < 3
    ensures FaceVertexSlotAsWritten(faceIndex, jointNumber) == FaceVertexSlot(faceIndex, jointNumber)
  {
  }

  /** With 21846 faces, vertex 1 of the last face wraps onto vertex 0 of face 0. */
  lemma FaceVertexSlotAliases()
    ensures FaceVertexSlotAsWritten(21845, 1) == FaceVertexSlotAsWritten(0, 0)
  {
  }

  /**
    The interval line endpoints and colours stay inside their own regions, and
    the two ends of one line never overlap those of another.
   */
  lemma LineCellsSeparate(joints: u16, intervals: u16, faces: u16, i: u16, j: u16)
    requires i < intervals && j < intervals
    ensures var L := InitLayout(joints, intervals, faces);
      && Regions(L)[0].start <= OutputAlphaLocationPtr(i)
      && OutputOmegaLocationPtr(i) + VECTOR_SIZE <= Regions(L)[0].End()
      && Regions(L)[1].start <= OutputAlphaColorPtr(L, i)
      && OutputOmegaColorPtr(L, i) + VECTOR_SIZE <= Regions(L)[1].End()
      && (i != j ==> Disjoint(OutputAlphaLocationPtr(i), LINE_SIZE, OutputAlphaLocationPtr(j), LINE_SIZE))
      && (i != j ==> Disjoint(OutputAlphaColorPtr(L, i), LINE_SIZE, OutputAlphaColorPtr(L, j), LINE_SIZE))
  {
    StrideCellFits(LINE_SIZE, intervals, i, 0, LINE_SIZE);
    if i != j {
      StrideCellsApart(LINE_SIZE, i, 0, LINE_SIZE, j, 0, LINE_SIZE);
    }
  }

  /**
    The midpoint of every face, and the normal and location of each of its three
    vertices, stay inside their own regions and never overlap another face's.
   */
  lemma FaceVertexCellsSeparate(L: Layout, i: u16, n: nat, j: u16, m: nat)
    requires i < L.faceMax && j < L.faceMax && n < 3 && m < 3
    ensures Regions(L)[2].start <= OutputMidpointPtr(L, i)
    ensures OutputMidpointPtr(L, i) + VECTOR_SIZE <= Regions(L)[2].End()
    ensures Regions(L)[3].start <= OutputNormalPtr(L, i, n)
    ensures OutputNormalPtr(L, i, n) + VECTOR_SIZE <= Regions(L)[3].End()
    ensures Regions(L)[4].start <= OutputLocationPtr(L, i, n)
    ensures OutputLocationPtr(L, i, n) + VECTOR_SIZE <= Regions(L)[4].End()
    ensures i != j ==> Disjoint(OutputMidpointPtr(L, i), VECTOR_SIZE, OutputMidpointPtr(L, j), VECTOR_SIZE)
    ensures (i, n) != (j, m) ==>
      Disjoint(OutputNormalPtr(L, i, n), VECTOR_SIZE, OutputNormalPtr(L, j, m), VECTOR_SIZE)
    ensures (i, n) != (j, m) ==>
      Disjoint(OutputLocationPtr(L, i, n), VECTOR_SIZE, OutputLocationPtr(L, j, m), VECTOR_SIZE)
  {
    StrideCellFits(VECTOR_SIZE, L.faceMax, i, 0, VECTOR_SIZE);
    StrideCellFits(VECTOR_SIZE, L.faceMax * 3, FaceVertexSlot(i, n), 0, VECTOR_SIZE);
    assert L.faceMax * 3 * VECTOR_SIZE == (L.faceMax * 3) * VECTOR_SIZE;
    if i != j {
      StrideCellsApart(VECTOR_SIZE, i, 0, VECTOR_SIZE, j, 0, VECTOR_SIZE);
    }
    if (i, n) != (j, m) {
      assert FaceVertexSlot(i, n) != FaceVertexSlot(j, m);
      StrideCellsApart(VECTOR_SIZE, FaceVertexSlot(i, n), 0, VECTOR_SIZE, FaceVertexSlot(j, m), 0, VECTOR_SIZE);
    }
  }

  // ---------------------------------------------------------------------------
  // Counterexamples to the layout as written

  /** With ten faces, behaviour row 5 begins exactly at the first scratch vector. */
  lemma BehaviorOverlapsScratchAsWritten()
    ensures var L := InitLayoutAsWritten(10, 10, 10);
      BehaviorTimePtr(L, 5, 0) == L.projection
  {
  }

  /** With 200 faces, face 128's first joint index is stored over behaviour row 0. */
  lemma FacesOverlapBehaviorAsWritten()
    ensures var L := InitLayoutAsWritten(10, 10, 200);
      FaceJointPtr(L, 128, 0) == BehaviorTimePtr(L, 0, 0)
  {
  }

  /**
    As written, with fewer than 120 face slots the four scratch vectors and the
    age word all lie inside the 768 bytes the behaviour accessors address, so
    every tick's scratch writes and age increment overwrite behaviour rows.
   */
  lemma ScratchInsideBehaviorAsWritten(joints: u16, intervals: u16, faces: u16)
    requires faces < 120
    ensures var L := InitLayoutAsWritten(joints, intervals, faces);
      && L.behavior <= L.projection
      && L.projection == BehaviorTimePtr(L, 0, 0) + faces * FACE_SIZE
      && L.age + AGE_SIZE <= L.behavior + ROLE_INDEX_MAX * BEHAVIOR_SIZE
  {
  }

  /**
    As written, face `k` from 128 on (up to 255) is stored inside behaviour row
    `(k - 128) / 2`: its joint indices land in the bytes of that row.
   */
  lemma FacesOverBehaviorAsWritten(joints: u16, intervals: u16, faces: u16, k: u16, n: nat)
    requires 128 <= k < 256 && n < 3
    ensures var L := InitLayoutAsWritten(joints, intervals, faces);
      && (k - 128) / 2 < ROLE_INDEX_MAX
      && BehaviorTimePtr(L, (k - 128) / 2, 0) <= FaceJointPtr(L, k, n)
      && FaceJointPtr(L, k, n) + INDEX_SIZE <= BehaviorTimePtr(L, (k - 128) / 2, 0) + BEHAVIOR_SIZE
  {
  }
}

=== FILE: spot.dfy ===
/**
  The integer and boolean side of the island's hex-grid spots: the coordinate
  order and arithmetic, the land-flag serialiser, the vertex and face indices a
  spot's surface adds to the island geometry, and the spot's two flags.
 */
module IslandSpot {

  datatype Option<T> = None | Some(value: T)

  /** Grid coordinates of a spot. */
  datatype Coords = Coords(x: int, y: int)

  /** A gotch as far as the spot flags look at it: only whether it has an owner. */
  datatype Gotch = Gotch(owner: Option<string>)

  /** A spot; its scaled float coordinates are not modelled. */
  datatype Spot = Spot(
    coords: Coords,
    land: bool,
    free: bool,
    memberOfGotch: seq<Gotch>,
    adjacentGotches: seq<Gotch>,
    centerOfGotch: Option<Gotch>,
    faceIndexes: seq<nat>)

  // ---------------------------------------------------------------------------
  // Coordinates

  /** `equals`: both coordinates agree, which is equality of the coordinate pairs. */
  predicate Equals(a: Coords, b: Coords)
    ensures Equals(a, b) <==> a == b
  {
    a.x == b.x && a.y == b.y
  }

  /** Row-major order: lower `y` first, then lower `x`. */
  predicate Precedes(a: Coords, b: Coords) {
    a.y < b.y || (a.y == b.y && a.x < b.x)
  }

  /**
    `coordSort`: -1, 0 or 1, negative exactly when `a` precedes `b` in
    row-major order, zero exactly when they are equal.
   */
  function CoordSort(a: Coords, b: Coords): (r: int)
    ensures r == -1 || r == 0 || r == 1
    ensures r == -1 <==> Precedes(a, b)
    ensures r == 1 <==> Precedes(b, a)
    ensures r == 0 <==> Equals(a, b)
  {
    if a.y < b.y then -1
    else if a.y > b.y then 1
    else if a.x < b.x then -1
    else if a.x > b.x then 1
    else 0
  }

  /**
    `coordSort` is a total order's comparator: antisymmetric, transitive, and
    every two coordinates are comparable.
   */
  lemma CoordSortIsTotalOrder(a: Coords, b: Coords, c: Coords)
    ensures CoordSort(a, b) == -CoordSort(b, a)
    ensures CoordSort(a, b) <= 0 && CoordSort(b, c) <= 0 ==> CoordSort(a, c) <= 0
    ensures CoordSort(a, b) < 0 && CoordSort(b, c) < 0 ==> CoordSort(a, c) < 0
    ensures CoordSort(a, b) <= 0 && CoordSort(b, a) <= 0 ==> a == b
  {
  }

  /** `plus`: componentwise sum; `minus` of the same offset undoes it. */
  function Plus(a: Coords, b: Coords): (r: Coords)
    ensures Minus(r, b) == a
  {
    Coords(a.x + b.x, a.y + b.y)
  }

  /** `minus`: componentwise difference, the offset that leads from `b` to `a`. */
  function Minus(a: Coords, b: Coords): (r: Coords)
    ensures Coords(r.x + b.x, r.y + b.y) == a
  {
    Coords(a.x - b.x, a.y - b.y)
  }

  /** `plus` and `minus` are inverse in both orders. */
  lemma PlusMinusRoundTrip(a: Coords, b: Coords)
    ensures Plus(Minus(a, b), b) == a
    ensures Minus(Plus(a, b), b) == a
  {
    var d := Minus(a, b);
    assert Coords(d.x + b.x, d.y + b.y) == a;
  }

  // ---------------------------------------------------------------------------
  // Land flags as hex nybbles

  /** `padRightTo4`: append `'0'` until the string is four long. */
  function PadRightTo4(s: string): (r: string)
    ensures |r| == if |s| < 4 then 4 else |s|
    ensures r[..|s|] == s
    ensures forall i :: |s| <= i < |r| ==> r[i] == '0'
    decreases if |s| < 4 then 4 - |s| else 0
  {
    if |s| < 4 then PadRightTo4(s + "0") else s
  }

  /** The digit `'1'` or `'0'` for a spot, as `spotsToString` writes it. */
  function Lit(spots: seq<Spot>): string {
    seq(|spots|, i requires 0 <= i < |spots| => if spots[i].land then '1' else '0')
  }

  function BinaryDigit(c: char): nat {
    if c == '1' then 1 else 0
  }

  /** `parseInt(s, 2)` of a string of binary digits, most significant first. */
  function BinaryValue(s: string): nat
    decreases |s|
  {
    if |s| == 0 then 0 else 2 * BinaryValue(s[..|s| - 1]) + BinaryDigit(s[|s| - 1])
  }

  /** A four-digit binary string denotes `8 b0 + 4 b1 + 2 b2 + b3`, a nybble. */
  lemma NybbleValue(s: string)
    requires |s| == 4
    ensures BinaryValue(s) == 8 * BinaryDigit(s[0]) + 4 * BinaryDigit(s[1]) + 2 * BinaryDigit(s[2]) + BinaryDigit(s[3])
    ensures BinaryValue(s) < 16
  {
    assert s[..3][..2] == s[..2];
    assert s[..2][..1] == s[..1];
    assert s[..1][..0] == [];
    assert BinaryValue(s[..1]) == BinaryDigit(s[0]);
    assert BinaryValue(s[..2]) == 2 * BinaryDigit(s[0]) + BinaryDigit(s[1]);
    assert BinaryValue(s[..3]) == 4 * BinaryDigit(s[0]) + 2 * BinaryDigit(s[1]) + BinaryDigit(s[2]);
  }

  predicate IsHexChar(c: char) {
    ('0' <= c <= '9') || ('a' <= c <= 'f')
  }

  /** The value of a lower-case hex digit. */
  function HexValue(c: char): nat
    requires IsHexChar(c)
  {
    if c <= '9' then c as int - '0' as int else c as int - 'a' as int + 10
  }

  /** `toString(16)` of a nybble: one lower-case hex digit, whose value is the nybble. */
  function HexDigit(v: nat): (c: char)
    requires v < 16
    ensures IsHexChar(c) && HexValue(c) == v
  {
    if v < 10 then ('0' as int + v) as char else ('a' as int + v - 10) as char
  }

  /** The four flags a nybble encodes, most significant bit first. */
  function NybbleFlags(v: nat): seq<bool>
    requires v < 16
  {
    [v / 8 % 2 == 1, v / 4 % 2 == 1, v / 2 % 2 == 1, v % 2 == 1]
  }

  /** The hex digit written for one chunk of at most four spots. */
  function ChunkDigit(chunk: seq<Spot>): (c: char)
    requires |chunk| <= 4
    ensures IsHexChar(c)
  {
    var padded := PadRightTo4(Lit(chunk));
    NybbleValue(padded);
    HexDigit(BinaryValue(padded))
  }

  /**
    `spotsToString`: each run of four spots (the last one possibly shorter)
    becomes one lower-case hex digit whose bits, most significant first, are the
    spots' land flags, padded with zero bits.
   */
  function SpotsToString(spots: seq<Spot>): (r: string)
    ensures |r| == (|spots| + 3) / 4
    ensures forall k :: 0 <= k < |r| ==> IsHexChar(r[k])
    decreases |spots|
  {
    if |spots| == 0 then ""
    else
      var n := if |spots| < 4 then |spots| else 4;
      [ChunkDigit(spots[..n])] + SpotsToString(spots[n..])
  }

  /** The land flag a serialised string records for spot `i`: bit `3 - i % 4` of digit `i / 4`. */
  function LandAt(str: string, i: nat): bool
    requires i / 4 < |str| && IsHexChar(str[i / 4])
  {
    NybbleFlags(HexValue(str[i / 4]))[i % 4]
  }

  /** Four bits packed most significant first unpack to themselves. */
  lemma NybbleFlagsOf(b0: nat, b1: nat, b2: nat, b3: nat)
    requires b0 < 2 && b1 < 2 && b2 < 2 && b3 < 2
    ensures NybbleFlags(8 * b0 + 4 * b1 + 2 * b2 + b3) == [b0 == 1, b1 == 1, b2 == 1, b3 == 1]
  {
  }

  /** A chunk's digit records each spot's land flag, and zero for the padding. */
  lemma ChunkDigitFlags(chunk: seq<Spot>, j: nat)
    requires |chunk| <= 4 && j < 4
    ensures NybbleFlags(HexValue(ChunkDigit(chunk)))[j] == (j < |chunk| && chunk[j].land)
  {
    var lit := Lit(chunk);
    var padded := PadRightTo4(lit);
    NybbleValue(padded);
    assert forall k :: 0 <= k < 4 ==> padded[k] == if k < |chunk| then lit[k] else '0' by {
      forall k | 0 <= k < 4
        ensures padded[k] == if k < |chunk| then lit[k] else '0'
      {
        if k < |chunk| {
          assert padded[..|lit|][k] == lit[k];
        }
      }
    }
    NybbleFlagsOf(BinaryDigit(padded[0]), BinaryDigit(padded[1]), BinaryDigit(padded[2]), BinaryDigit(padded[3]));
  }

  /** The first digit of the string records the first chunk's flags. */
  lemma FirstChunkFlags(spots: seq<Spot>, i: nat)
    requires 0 < |spots| && i < 4
    ensures var r := SpotsToString(spots);
      i / 4 < |r| && LandAt(r, i) == (i < |spots| && spots[i].land)
  {
    var n := if |spots| < 4 then |spots| else 4;
    var r := SpotsToString(spots);
    assert r[0] == ChunkDigit(spots[..n]);
    ChunkDigitFlags(spots[..n], i);
    if i < n {
      assert spots[..n][i] == spots[i];
    }
  }

  /** Past the first digit, the string reads as the string of the spots after the first four. */
  lemma LaterChunkFlags(spots: seq<Spot>, i: nat)
    requires 4 < |spots| && 4 <= i < 4 * |SpotsToString(spots)|
    ensures var r := SpotsToString(spots); var rest := SpotsToString(spots[4..]);
      && (i - 4) / 4 < |rest|
      && LandAt(r, i) == LandAt(rest, i - 4)
  {
    var r := SpotsToString(spots);
    var rest := SpotsToString(spots[4..]);
    assert r == [ChunkDigit(spots[..4])] + rest;
    assert i / 4 == (i - 4) / 4 + 1 && i % 4 == (i - 4) % 4;
    assert r[i / 4] == rest[(i - 4) / 4];
  }

  /**
    Decoding recovers the flags: spot `i`'s land flag is bit `3 - i % 4` of hex
    digit `i / 4`, and every padding bit after the last spot is zero.
   */
  lemma {:induction false} SpotsToStringRoundTrip(spots: seq<Spot>)
    ensures var r := SpotsToString(spots);
      && (forall i :: 0 <= i < |spots| ==> LandAt(r, i) == spots[i].land)
      && (forall i :: |spots| <= i < 4 * |r| ==> !LandAt(r, i))
    decreases |spots|
  {
    if |spots| > 0 {
      var n := if |spots| < 4 then |spots| else 4;
      var r := SpotsToString(spots);
      SpotsToStringRoundTrip(spots[n..]);
      forall i | 0 <= i < 4 * |r|
        ensures LandAt(r, i) == (i < |spots| && spots[i].land)
      {
        if i < 4 {
          FirstChunkFlags(spots, i);
        } else {
          LaterChunkFlags(spots, i);
          if i < |spots| {
            assert spots[4..][i - 4] == spots[i];
          }
        }
      }
    }
  }

  // ---------------------------------------------------------------------------
  // Surface geometry indices

  /** A triangle of the island geometry, by vertex index; normals and colour are not modelled. */
  datatype Face3 = Face3(a: nat, b: nat, c: nat)

  /** The geometry being built for the island; vertex positions are opaque values. */
  datatype Context<V> = Context(faces: seq<Face3>, vertices: seq<V>, owner: string, singleGotch: bool)

  const SIX: nat := 6
  const HEXAGON_POINT_COUNT: nat := 7

  /** Face `a` of the hexagon of spot number `index`: the centre and rim corners `a` and `a + 1`. */
  function FanFace(index: nat, a: nat): Face3 {
    Face3(HEXAGON_POINT_COUNT * index + SIX, HEXAGON_POINT_COUNT * index + a, HEXAGON_POINT_COUNT * index + (a + 1) % SIX)
  }

  /**
    `addSurfaceGeometry(index, context)`: the seven hexagon vertices (given, as
    their float positions are not modelled) are appended; six fan faces around
    the centre vertex `7 index + 6` are appended, face `a` spanning rim corners
    `a` and `(a + 1) mod 6`; and the spot records the six positions those faces
    took. Nothing else in the spot or the context changes.
   */
  method AddSurfaceGeometry<V>(spot: Spot, index: nat, context: Context<V>, hexagon: seq<V>)
    returns (spot': Spot, context': Context<V>)
    requires |hexagon| == HEXAGON_POINT_COUNT
    ensures context' == context.(faces := context'.faces, vertices := context'.vertices)
    ensures spot' == spot.(faceIndexes := spot'.faceIndexes)
    ensures context'.vertices == context.vertices + hexagon
    ensures |context'.faces| == |context.faces| + SIX
    ensures context'.faces[..|context.faces|] == context.faces
    ensures |spot'.faceIndexes| == |spot.faceIndexes| + SIX
    ensures spot'.faceIndexes[..|spot.faceIndexes|] == spot.faceIndexes
    ensures forall j :: |spot.faceIndexes| <= j < |spot'.faceIndexes| ==>
      spot'.faceIndexes[j] == |context.faces| + (j - |spot.faceIndexes|)
    ensures forall j :: |context.faces| <= j < |context'.faces| ==>
      context'.faces[j] == FanFace(index, j - |context.faces|)
    ensures forall j :: |spot.faceIndexes| <= j < |spot'.faceIndexes| ==>
      spot'.faceIndexes[j] < |context'.faces| &&
      context'.faces[spot'.faceIndexes[j]] == FanFace(index, j - |spot.faceIndexes|)
  {
    var faces := context.faces;
    var faceIndexes: seq<nat> := spot.faceIndexes;
    var a := 0;
    while a < SIX
      invariant a <= SIX
      invariant |faces| == |context.faces| + a && faces[..|context.faces|] == context.faces
      invariant |faceIndexes| == |spot.faceIndexes| + a && faceIndexes[..|spot.faceIndexes|] == spot.faceIndexes
      invariant forall j :: |spot.faceIndexes| <= j < |faceIndexes| ==>
        faceIndexes[j] == |context.faces| + (j - |spot.faceIndexes|)
      invariant forall j :: |context.faces| <= j < |faces| ==> faces[j] == FanFace(index, j - |context.faces|)
    {
      var offset := index * HEXAGON_POINT_COUNT;
      var b := (a + 1) % SIX;
      assert Face3(offset + SIX, offset + a, offset + b) == FanFace(index, a);
      faceIndexes := faceIndexes + [|faces|];
      faces := faces + [Face3(offset + SIX, offset + a, offset + b)];
      a := a + 1;
    }
    spot' := spot.(faceIndexes := faceIndexes);
    context' := context.(faces := faces, vertices := context.vertices + hexagon);
  }

  /** Every face of the context names an existing vertex. */
  predicate FacesInRange<V>(context: Context<V>) {
    forall f :: 0 <= f < |context.faces| ==>
      context.faces[f].a < |context.vertices| && context.faces[f].b < |context.vertices|
      && context.faces[f].c < |context.vertices|
  }

  /**
    When spots are added in index order (the context holds exactly `7 index`
    vertices), the new faces name only the spot's own new vertices, share its
    centre vertex, and close a fan: each face's last rim corner is the next
    face's first; so every face in the context still names an existing vertex.
   */
  lemma SurfaceFanCloses<V>(context: Context<V>, index: nat, a: nat)
    requires |context.vertices| == HEXAGON_POINT_COUNT * index && a < SIX
    ensures var f := FanFace(index, a);
      && |context.vertices| <= f.b < |context.vertices| + SIX
      && |context.vertices| <= f.c < |context.vertices| + SIX
      && f.a == |context.vertices| + SIX
      && f.c == FanFace(index, (a + 1) % SIX).b
      && f.b != f.c
  {
  }

  /** Adding a spot's surface in index order keeps every face naming an existing vertex. */
  lemma SurfaceKeepsFacesInRange<V>(spot: Spot, index: nat, context: Context<V>, hexagon: seq<V>,
                                    spot': Spot, context': Context<V>)
    requires |hexagon| == HEXAGON_POINT_COUNT && |context.vertices| == HEXAGON_POINT_COUNT * index
    requires FacesInRange(context)
    requires context'.vertices == context.vertices + hexagon
    requires |context'.faces| == |context.faces| + SIX && context'.faces[..|context.faces|] == context.faces
    requires forall j :: |context.faces| <= j < |context'.faces| ==>
      context'.faces[j] == FanFace(index, j - |context.faces|)
    ensures FacesInRange(context')
    ensures |context'.vertices| == HEXAGON_POINT_COUNT * (index + 1)
  {
    forall f | 0 <= f < |context'.faces|
      ensures context'.faces[f].a < |context'.vertices| && context'.faces[f].b < |context'.vertices|
        && context'.faces[f].c < |context'.vertices|
    {
      if f < |context.faces| {
        assert context'.faces[f] == context'.faces[..|context.faces|][f];
      } else {
        SurfaceFanCloses(context, index, f - |context.faces|);
      }
    }
  }

  // ---------------------------------------------------------------------------
  // Flags

  /** `!!gotch.owner`: the owner is present and not the empty string. */
  predicate Owned(g: Gotch) {
    g.owner.Some? && g.owner.value != ""
  }

  /** `canBeNewGotch`: not the centre of a gotch, and next to at least one. */
  function CanBeNewGotch(spot: Spot): (r: bool)
    ensures r <==> spot.centerOfGotch.None? && exists g :: g in spot.adjacentGotches
  {
    assert |spot.adjacentGotches| > 0 ==> spot.adjacentGotches[0] in spot.adjacentGotches;
    spot.centerOfGotch.None? && |spot.adjacentGotches| > 0
  }

  /** `Array.find` with the owner test: the first owned gotch, if any. */
  function FindOwned(gotches: seq<Gotch>): (r: Option<Gotch>)
    ensures r.None? <==> forall k :: 0 <= k < |gotches| ==> !Owned(gotches[k])
    ensures r.Some? ==> exists k :: 0 <= k < |gotches| && gotches[k] == r.value && Owned(r.value)
                                   && forall m :: 0 <= m < k ==> !Owned(gotches[m])
    decreases |gotches|
  {
    if |gotches| == 0 then None
    else if Owned(gotches[0]) then Some(gotches[0])
    else
      var r := FindOwned(gotches[1..]);
      assert forall k :: 1 <= k < |gotches| ==> gotches[k] == gotches[1..][k - 1];
      r
  }

  /** `updateFreeFlag`: the spot is free exactly when no gotch it belongs to is owned; nothing else changes. */
  function UpdateFreeFlag(spot: Spot): (r: Spot)
    ensures r == spot.(free := r.free)
    ensures r.free <==> forall g :: g in spot.memberOfGotch ==> !Owned(g)
  {
    spot.(free := FindOwned(spot.memberOfGotch).None?)
  }
}

=== FILE: tick.dfy ===
/**
  One simulation tick and `iterate`: the per-interval phase state machine of
  `elasticBehavior`, the bookkeeping around the float physics, and the summary
  `iterate` returns. The float physics itself is an input: for each live
  interval the measured unit vector, span and computed stress, and for each
  live joint its new location and velocity.
 */
module Tick {
  import opened Ints
  import opened Arena

  const TIME_INDEX_STEP: u16 := 37
  const STRESS_MAX: real := 0.001

  // ---------------------------------------------------------------------------
  // Phase state machine

  /**
    The phase advance at the end of `elasticBehavior`: phase 0 stays 0; a nonzero
    phase moves on by `step` and drops to 0 when the 16-bit sum wraps.
   */
  function AdvancePhase(timeIndex: u16, step: u16): (r: u16)
    ensures timeIndex == 0 ==> r == 0
    ensures timeIndex > 0 && timeIndex + step < 0x1_0000 ==> r == timeIndex + step
    ensures timeIndex > 0 && timeIndex + step >= 0x1_0000 ==> r == 0
  {
    if timeIndex > 0 then
      var next := Wrap16(timeIndex + step);
      if next < timeIndex then 0 else next
    else timeIndex
  }

  /** The phase after `n` ticks. */
  function PhaseAfter(timeIndex: u16, step: u16, n: nat): u16
    decreases n
  {
    if n == 0 then timeIndex else PhaseAfter(AdvancePhase(timeIndex, step), step, n - 1)
  }

  /** An idle interval stays idle. */
  lemma {:induction false} IdleStaysIdle(step: u16, n: nat)
    ensures PhaseAfter(0, step, n) == 0
    decreases n
  {
    if n > 0 {
      IdleStaysIdle(step, n - 1);
    }
  }

  /**
    A running phase `t` is `t + n * step` after `n` ticks while that sum stays
    below 65536, and 0 from then on.
   */
  lemma {:induction false} RunningPhase(t: u16, step: u16, n: nat)
    requires t > 0
    ensures PhaseAfter(t, step, n) == if t + n * step < 0x1_0000 then t + n * step else 0
    decreases n
  {
    if n > 0 {
      var next := AdvancePhase(t, step);
      assert n * step == step + (n - 1) * step;
      if next == 0 {
        IdleStaysIdle(step, n - 1);
      } else {
        RunningPhase(next, step, n - 1);
      }
    }
  }

  /** Multiplying by a natural keeps order. */
  lemma MulMonotone(x: nat, y: nat, c: nat)
    requires x <= y
    ensures x * c <= y * c
  {
    assert y * c == x * c + (y - x) * c;
  }

  /** The last tick count at which a triggered phase is still running. */
  lemma LastRunningTick(step: u16, n: nat)
    requires step > 0
    ensures 1 + n * step < 0x1_0000 <==> n <= 65534 / step
  {
    var q := 65534 / step;
    assert q * step <= 65534 < (q + 1) * step;
    if n <= q {
      MulMonotone(n, q, step);
    } else {
      MulMonotone(q + 1, n, step);
    }
  }

  /**
    A triggered interval (phase 1) with a positive step strictly increases its
    phase on every tick until the one tick where it resets to 0, and it is
    idle for good after `65534 / step + 1` ticks.
   */
  lemma TriggeredTransition(step: u16, n: nat)
    requires step > 0
    ensures PhaseAfter(1, step, n + 1) == 0 || PhaseAfter(1, step, n + 1) > PhaseAfter(1, step, n)
    ensures PhaseAfter(1, step, n) == 0 ==> PhaseAfter(1, step, n + 1) == 0
    ensures PhaseAfter(1, step, n) == 0 <==> n > 65534 / step
  {
    RunningPhase(1, step, n);
    RunningPhase(1, step, n + 1);
    LastRunningTick(step, n);
    LastRunningTick(step, n + 1);
    assert (n + 1) * step == n * step + step;
  }

  // ---------------------------------------------------------------------------
  // One interval on one tick

  /** What the float physics yields for one interval on one tick. */
  datatype IntervalPhysics = IntervalPhysics(unit: Vec3, span: real, stress: real)

  /**
    `elasticBehavior` on one interval, as far as the interval's own record goes:
    `calculateSpan` caches the unit vector; the stress cache takes the computed
    stress except on the tick the phase is 1, when a role-0 interval stores its
    measured span there instead and any other role leaves the cache alone; the
    phase advances. Role, endpoints and ideal span are untouched.
   */
  function ElasticStep(iv: Interval, step: u16, p: IntervalPhysics): (r: Interval)
    ensures r.role == iv.role && r.alpha == iv.alpha && r.omega == iv.omega && r.idealSpan == iv.idealSpan
    ensures r.unit == p.unit
    ensures r.timeIndex == AdvancePhase(iv.timeIndex, step)
    ensures iv.timeIndex != 1 ==> r.stress == p.stress
    ensures iv.timeIndex == 1 && iv.role == 0 ==> r.stress == p.span
    ensures iv.timeIndex == 1 && iv.role != 0 ==> r.stress == iv.stress
  {
    var measured := iv.(unit := p.unit);
    var cached := if iv.role == 0 && iv.timeIndex == 1 then measured.(stress := p.span) else measured;
    var stressed := if iv.timeIndex != 1 then cached.(stress := p.stress) else cached;
    stressed.(timeIndex := AdvancePhase(iv.timeIndex, step))
  }

  // ---------------------------------------------------------------------------
  // One tick of the whole arena

  /** What the float physics yields for one joint on one tick. */
  datatype JointMotion = JointMotion(location: Vec3, velocity: Vec3)

  /**
    A joint at the end of `tick`: moved and with its new velocity, the force and
    absorbed velocity cleared, the mass back to the ambient mass; gravity,
    altitude, laterality and tag are not written by a tick.
   */
  function Move(j: Joint, m: JointMotion): (r: Joint)
    ensures r.tag == j.tag && r.laterality == j.laterality
    ensures r.gravity == j.gravity && r.altitude == j.altitude
    ensures r.location == m.location && r.velocity == m.velocity
    ensures r.force == ZERO && r.absorbVelocity == ZERO && r.intervalMass == AMBIENT_JOINT_MASS
  {
    j.(location := m.location, velocity := m.velocity, force := ZERO,
       absorbVelocity := ZERO, intervalMass := AMBIENT_JOINT_MASS)
  }

  /** The float physics of one tick: one entry per live interval and per live joint. */
  datatype TickPhysics = TickPhysics(intervals: seq<IntervalPhysics>, joints: seq<JointMotion>)

  predicate Fits(a: Arena, p: TickPhysics) {
    |p.intervals| == a.intervals.count && |p.joints| == a.joints.count
  }

  /**
    `tick`: the age grows by one (32-bit), every live interval goes through
    `ElasticStep` with the given step, every live joint is moved, and nothing
    else changes: counts, capacities, stale slots, faces, the behaviour table,
    the layout and the tag counter stay, and so do the references between
    live records.
   */
  function Tick(a: Arena, step: u16, p: TickPhysics): (b: Arena)
    requires a.Valid() && a.IntervalsReferenceJoints() && Fits(a, p)
    ensures b.Valid() && b.IntervalsReferenceJoints()
    ensures b == a.(joints := b.joints, intervals := b.intervals, age := b.age)
    ensures b.age == Inc32(a.age)
    ensures b.joints.count == a.joints.count && b.intervals.count == a.intervals.count
    ensures a.FacesReferenceJoints() ==> b.FacesReferenceJoints()
    ensures forall i :: 0 <= i < a.intervals.count ==>
      b.intervals.slots[i] == ElasticStep(a.intervals.slots[i], step, p.intervals[i])
    ensures forall i :: a.intervals.count <= i < |a.intervals.slots| ==> b.intervals.slots[i] == a.intervals.slots[i]
    ensures forall k :: 0 <= k < a.joints.count ==> b.joints.slots[k] == Move(a.joints.slots[k], p.joints[k])
    ensures forall k :: a.joints.count <= k < |a.joints.slots| ==> b.joints.slots[k] == a.joints.slots[k]
  {
    var ivs := a.intervals.slots;
    var js := a.joints.slots;
    var intervals := seq(|ivs|, i requires 0 <= i < |ivs| =>
      if i < a.intervals.count then ElasticStep(ivs[i], step, p.intervals[i]) else ivs[i]);
    var joints := seq(|js|, k requires 0 <= k < |js| =>
      if k < a.joints.count then Move(js[k], p.joints[k]) else js[k]);
    a.(joints := a.joints.(slots := joints), intervals := a.intervals.(slots := intervals), age := Inc32(a.age))
  }

  /** Several ticks in a row, one physics input each. */
  function Ticks(a: Arena, step: u16, ps: seq<TickPhysics>): (b: Arena)
    requires a.Valid() && a.IntervalsReferenceJoints()
    requires forall t :: 0 <= t < |ps| ==> Fits(a, ps[t])
    ensures b.Valid() && b.IntervalsReferenceJoints()
    ensures b.layout == a.layout && b.faces == a.faces && b.behavior == a.behavior && b.jointTagCount == a.jointTagCount
    ensures b.joints.count == a.joints.count && b.intervals.count == a.intervals.count
    ensures |b.intervals.slots| == |a.intervals.slots|
    decreases |ps|
  {
    if |ps| == 0 then a
    else
      var next := Tick(a, step, ps[0]);
      assert forall t :: 0 <= t < |ps| - 1 ==> ps[1..][t] == ps[t + 1] && Fits(a, ps[t + 1]);
      Ticks(next, step, ps[1..])
  }

  /**
    Over any run of ticks, each live interval's phase is exactly `PhaseAfter`
    its starting phase, and its role and endpoints stay.
   */
  lemma {:induction false} TicksPhases(a: Arena, step: u16, ps: seq<TickPhysics>, i: nat)
    requires a.Valid() && a.IntervalsReferenceJoints()
    requires forall t :: 0 <= t < |ps| ==> Fits(a, ps[t])
    requires i < a.intervals.count
    ensures var b := Ticks(a, step, ps);
      && b.intervals.slots[i].timeIndex == PhaseAfter(a.intervals.slots[i].timeIndex, step, |ps|)
      && b.intervals.slots[i].role == a.intervals.slots[i].role
      && b.intervals.slots[i].alpha == a.intervals.slots[i].alpha
      && b.intervals.slots[i].omega == a.intervals.slots[i].omega
    decreases |ps|
  {
    if |ps| > 0 {
      var next := Tick(a, step, ps[0]);
      TicksPhases(next, step, ps[1..], i);
    }
  }

  // ---------------------------------------------------------------------------
  // The summary returned by iterate

  /**
    The stress shown for an interval: 0 while its phase is 1 (its stress cache
    then holds a span), otherwise the stress in units of `STRESS_MAX`, clamped
    to [-1, 1].
   */
  function DisplayStress(iv: Interval): (s: real)
    ensures -1.0 <= s <= 1.0
    ensures iv.timeIndex == 1 ==> s == 0.0
    ensures iv.timeIndex != 1 && -STRESS_MAX <= iv.stress <= STRESS_MAX ==> s * STRESS_MAX == iv.stress
    ensures iv.timeIndex != 1 && iv.stress > STRESS_MAX ==> s == 1.0
    ensures iv.timeIndex != 1 && iv.stress < -STRESS_MAX ==> s == -1.0
  {
    if iv.timeIndex == 1 then 0.0
    else
      var s := iv.stress / STRESS_MAX;
      if s > 1.0 then 1.0 else if s < -1.0 then -1.0 else s
  }

  datatype Color = Color(red: real, green: real, blue: real)

  /**
    The line colour for a displayed stress `s`: no green, red and blue always
    sum to 1.2, blue exceeds red by `0.8 * s`, and for `s` in [-1, 1] both lie
    in [0.2, 1.0]: pure-ish blue under full tension, red under full compression.
   */
  function LineColor(s: real): (c: Color)
    ensures c.green == 0.0
    ensures c.red + c.blue == 1.2
    ensures c.blue - c.red == 0.8 * s
    ensures -1.0 <= s <= 1.0 ==> 0.2 <= c.red <= 1.0 && 0.2 <= c.blue <= 1.0
  {
    Color(0.6 + -s * 0.4, 0.0, 0.6 + s * 0.4)
  }

  /** One interval's line in the output buffers: its endpoints' locations and its colour (the same at both ends). */
  datatype LineOut = LineOut(alphaLocation: Vec3, omegaLocation: Vec3, color: Color)

  /**
    The summary loop of `iterate`: one line per live interval, from its
    endpoint joints' locations and its displayed stress, and the largest phase
    of any live interval (0 when there is none).
   */
  method Summarize(a: Arena) returns (maxTimeIndex: u16, lines: seq<LineOut>)
    requires a.Valid() && a.IntervalsReferenceJoints()
    ensures |lines| == a.intervals.count
    ensures forall i :: 0 <= i < a.intervals.count ==>
      && lines[i].alphaLocation == a.joints.slots[a.intervals.slots[i].alpha].location
      && lines[i].omegaLocation == a.joints.slots[a.intervals.slots[i].omega].location
      && lines[i].color == LineColor(DisplayStress(a.intervals.slots[i]))
    ensures forall i :: 0 <= i < a.intervals.count ==> a.intervals.slots[i].timeIndex <= maxTimeIndex
    ensures maxTimeIndex > 0 ==> exists i :: 0 <= i < a.intervals.count && a.intervals.slots[i].timeIndex == maxTimeIndex
    ensures maxTimeIndex == 0 <==> forall i :: 0 <= i < a.intervals.count ==> a.intervals.slots[i].timeIndex == 0
  {
    maxTimeIndex := 0;
    lines := [];
    var intervalIndex := 0;
    while intervalIndex < a.intervals.count
      invariant intervalIndex <= a.intervals.count
      invariant |lines| == intervalIndex
      invariant forall i :: 0 <= i < intervalIndex ==>
        && lines[i].alphaLocation == a.joints.slots[a.intervals.slots[i].alpha].location
        && lines[i].omegaLocation == a.joints.slots[a.intervals.slots[i].omega].location
        && lines[i].color == LineColor(DisplayStress(a.intervals.slots[i]))
      invariant forall i :: 0 <= i < intervalIndex ==> a.intervals.slots[i].timeIndex <= maxTimeIndex
      invariant maxTimeIndex > 0 ==> exists i :: 0 <= i < intervalIndex && a.intervals.slots[i].timeIndex == maxTimeIndex
    {
      var iv := a.intervals.slots[intervalIndex];
      var stress := DisplayStress(iv);
      var line := LineOut(a.joints.slots[iv.alpha].location, a.joints.slots[iv.omega].location, LineColor(stress));
      lines := lines + [line];
      if iv.timeIndex > maxTimeIndex {
        maxTimeIndex := iv.timeIndex;
      }
      intervalIndex := intervalIndex + 1;
    }
  }

  /**
    The tick counter of `iterate` as written: a u16 that counts up by one per
    tick, wrapping at 65536.
   */
  function TickCounterAsWritten(k: nat): (r: u16)
    ensures k < 0x1_0000 ==> r == k
    ensures k == 0x1_0000 ==> r == 0
    decreases k
  {
    if k == 0 then 0 else Wrap16(TickCounterAsWritten(k - 1) + 1)
  }

  /**
    After `k` ticks the counter as written holds `k mod 65536`, so for a request
    of 65536 ticks or more the loop condition `counter < ticks` holds forever
    and `iterate` never returns.
   */
  lemma {:induction false} TickCounterNeverReaches(ticks: nat, k: nat)
    requires ticks >= 0x1_0000
    ensures TickCounterAsWritten(k) == k % 0x1_0000
    ensures TickCounterAsWritten(k) < ticks
    decreases k
  {
    if k > 0 {
      TickCounterNeverReaches(ticks, k - 1);
    }
  }

  /**
    `iterate(ticks)` with an unbounded tick counter: exactly `|ps|` ticks with
    step 37, after which every live interval's phase is `PhaseAfter` its
    starting phase, followed by the summary of the resulting arena.
   */
  method Iterate(a: Arena, ps: seq<TickPhysics>) returns (b: Arena, maxTimeIndex: u16, lines: seq<LineOut>)
    requires a.Valid() && a.IntervalsReferenceJoints()
    requires forall t :: 0 <= t < |ps| ==> Fits(a, ps[t])
    ensures b == Ticks(a, TIME_INDEX_STEP, ps)
    ensures b.intervals.count == a.intervals.count && |lines| == a.intervals.count
    ensures forall i :: 0 <= i < a.intervals.count ==>
      b.intervals.slots[i].timeIndex == PhaseAfter(a.intervals.slots[i].timeIndex, TIME_INDEX_STEP, |ps|)
    ensures forall i :: 0 <= i < a.intervals.count ==> b.intervals.slots[i].timeIndex <= maxTimeIndex
    ensures maxTimeIndex > 0 ==> exists i :: 0 <= i < a.intervals.count && b.intervals.slots[i].timeIndex == maxTimeIndex
    ensures maxTimeIndex == 0 <==> forall i :: 0 <= i < a.intervals.count ==> b.intervals.slots[i].timeIndex == 0
    ensures forall i :: 0 <= i < a.intervals.count ==>
      && lines[i].alphaLocation == b.joints.slots[b.intervals.slots[i].alpha].location
      && lines[i].omegaLocation == b.joints.slots[b.intervals.slots[i].omega].location
      && lines[i].color == LineColor(DisplayStress(b.intervals.slots[i]))
  {
    b := a;
    var thisTick := 0;
    while thisTick < |ps|
      invariant thisTick <= |ps|
      invariant b.Valid() && b.IntervalsReferenceJoints()
      invariant b.joints.count == a.joints.count && b.intervals.count == a.intervals.count
      invariant forall t :: 0 <= t < |ps| ==> Fits(b, ps[t])
      invariant Ticks(b, TIME_INDEX_STEP, ps[thisTick..]) == Ticks(a, TIME_INDEX_STEP, ps)
    {
      assert ps[thisTick..][1..] == ps[thisTick + 1..];
      b := Tick(b, TIME_INDEX_STEP, ps[thisTick]);
      thisTick := thisTick + 1;
    }
    assert ps[thisTick..] == [];
    forall i | 0 <= i < a.intervals.count
      ensures b.intervals.slots[i].timeIndex == PhaseAfter(a.intervals.slots[i].timeIndex, TIME_INDEX_STEP, |ps|)
    {
      TicksPhases(a, TIME_INDEX_STEP, ps, i);
    }
    maxTimeIndex, lines := Summarize(b);
  }
}

=== FILE: topology.dfy ===
/**
  Lookups and edits over the arena's topology: interval and opposite-face
  search, face laterality, face removal by compaction, joint tags and
  triggering an interval.
 */
module Topology {
  import opened Ints
  import opened Arena

  // ---------------------------------------------------------------------------
  // findIntervalIndex

  /** The interval joins the two joints, in either order. */
  predicate Connects(iv: Interval, joint0: u16, joint1: u16) {
    (iv.alpha == joint0 && iv.omega == joint1) || (iv.alpha == joint1 && iv.omega == joint0)
  }

  /** The scan from interval `k` on: the first connecting interval, else the count. */
  function FindIntervalFrom(s: Store<Interval>, joint0: u16, joint1: u16, k: nat): (r: nat)
    requires s.Valid() && k <= s.count
    ensures k <= r <= s.count
    ensures r < s.count ==> Connects(s.slots[r], joint0, joint1)
    ensures forall h :: k <= h < r ==> !Connects(s.slots[h], joint0, joint1)
    decreases s.count - k
  {
    if k == s.count then s.count
    else if Connects(s.slots[k], joint0, joint1) then k
    else FindIntervalFrom(s, joint0, joint1, k + 1)
  }

  /**
    `findIntervalIndex(joint0, joint1)`: the lowest live interval joining the two
    joints in either order, or the interval capacity when there is none.
   */
  function FindIntervalIndex(a: Arena, joint0: u16, joint1: u16): (r: u16)
    requires a.Valid()
    ensures r < a.intervals.count || r == a.layout.intervalMax
    ensures r < a.intervals.count ==>
      && Connects(a.intervals.slots[r], joint0, joint1)
      && forall h :: 0 <= h < r ==> !Connects(a.intervals.slots[h], joint0, joint1)
    ensures r == a.layout.intervalMax <==>
      forall h :: 0 <= h < a.intervals.count ==> !Connects(a.intervals.slots[h], joint0, joint1)
  {
    var k := FindIntervalFrom(a.intervals, joint0, joint1, 0);
    if k == a.intervals.count then a.layout.intervalMax else k
  }

  /** The lookup does not depend on the order the two joints are given in. */
  lemma FindIntervalIndexSymmetric(a: Arena, joint0: u16, joint1: u16)
    requires a.Valid()
    ensures FindIntervalIndex(a, joint0, joint1) == FindIntervalIndex(a, joint1, joint0)
  {
    var r := FindIntervalIndex(a, joint0, joint1);
    var q := FindIntervalIndex(a, joint1, joint0);
    assert forall h :: 0 <= h < a.intervals.count ==>
      (Connects(a.intervals.slots[h], joint0, joint1) <==> Connects(a.intervals.slots[h], joint1, joint0));
    if r < q {
      assert q == a.layout.intervalMax || q < a.intervals.count;
    } else if q < r {
      assert r == a.layout.intervalMax || r < a.intervals.count;
    }
  }

  // ---------------------------------------------------------------------------
  // Joint tags of faces and intervals

  function JointTag(a: Arena, jointIndex: u16): u16
    requires a.Valid() && jointIndex < a.joints.count
  {
    a.joints.slots[jointIndex].tag
  }

  /** `getFaceTag(face, 0..2)`: the tags of a face's three joints. */
  function FaceTags(a: Arena, faceIndex: nat): (tags: seq<u16>)
    requires a.Valid() && a.FacesReferenceJoints() && faceIndex < a.faces.count
    ensures |tags| == 3
  {
    var f := a.faces.slots[faceIndex];
    [JointTag(a, f.joint0), JointTag(a, f.joint1), JointTag(a, f.joint2)]
  }

  /** Face `g` is another live face and each of face `f`'s tags occurs among `g`'s. */
  predicate IsOppositeFace(a: Arena, f: nat, g: nat)
    requires a.Valid() && a.FacesReferenceJoints() && f < a.faces.count
  {
    g != f && g < a.faces.count && forall n :: 0 <= n < 3 ==> FaceTags(a, f)[n] in FaceTags(a, g)
  }

  function FindOppositeFaceFrom(a: Arena, f: nat, k: nat): (r: nat)
    requires a.Valid() && a.FacesReferenceJoints() && f < a.faces.count && k <= a.faces.count
    ensures k <= r <= a.faces.count
    ensures r < a.faces.count ==> IsOppositeFace(a, f, r)
    ensures forall h :: k <= h < r ==> !IsOppositeFace(a, f, h)
    decreases a.faces.count - k
  {
    if k == a.faces.count then a.faces.count
    else if k == f then FindOppositeFaceFrom(a, f, k + 1)
    else
      var tags := FaceTags(a, f);
      var these := FaceTags(a, k);
      var match0 := tags[0] == these[0] || tags[0] == these[1] || tags[0] == these[2];
      var match1 := tags[1] == these[0] || tags[1] == these[1] || tags[1] == these[2];
      var match2 := tags[2] == these[0] || tags[2] == these[1] || tags[2] == these[2];
      if match0 && match1 && match2 then k else FindOppositeFaceFrom(a, f, k + 1)
  }

  /**
    `findOppositeFaceIndex(face)`: the lowest other live face carrying each of
    this face's joint tags, or `faceCount + 1` when there is none.
   */
  function FindOppositeFaceIndex(a: Arena, faceIndex: u16): (r: u16)
    requires a.Valid() && a.FacesReferenceJoints() && faceIndex < a.faces.count
    ensures r == a.faces.count + 1 <==> forall g :: 0 <= g < a.faces.count ==> !IsOppositeFace(a, faceIndex, g)
    ensures r != a.faces.count + 1 ==>
      && r < a.faces.count && IsOppositeFace(a, faceIndex, r)
      && forall g :: 0 <= g < r ==> !IsOppositeFace(a, faceIndex, g)
  {
    var k := FindOppositeFaceFrom(a, faceIndex, 0);
    if k == a.faces.count then a.faces.count + 1 else k
  }

  // ---------------------------------------------------------------------------
  // getFaceLaterality

  function FaceJointLaterality(a: Arena, faceIndex: nat, n: nat): u8
    requires a.Valid() && a.FacesReferenceJoints() && faceIndex < a.faces.count && n < 3
  {
    a.joints.slots[a.faces.slots[faceIndex].JointAt(n)].laterality
  }

  /**
    `getFaceLaterality`: the laterality of the first of the face's three joints
    that is not in the middle, else middle.
   */
  method GetFaceLaterality(a: Arena, faceIndex: u16) returns (laterality: u8)
    requires a.Valid() && a.FacesReferenceJoints() && faceIndex < a.faces.count
    ensures laterality == BILATERAL_MIDDLE <==>
      forall n :: 0 <= n < 3 ==> FaceJointLaterality(a, faceIndex, n) == BILATERAL_MIDDLE
    ensures laterality != BILATERAL_MIDDLE ==>
      exists n :: 0 <= n < 3 && FaceJointLaterality(a, faceIndex, n) == laterality
        && forall m :: 0 <= m < n ==> FaceJointLaterality(a, faceIndex, m) == BILATERAL_MIDDLE
  {
    var jointWalk := 0;
    while jointWalk < 3
      invariant jointWalk <= 3
      invariant forall m :: 0 <= m < jointWalk ==> FaceJointLaterality(a, faceIndex, m) == BILATERAL_MIDDLE
    {
      var jointLaterality := FaceJointLaterality(a, faceIndex, jointWalk);
      if jointLaterality != BILATERAL_MIDDLE {
        return jointLaterality;
      }
      jointWalk := jointWalk + 1;
    }
    return BILATERAL_MIDDLE;
  }

  // ---------------------------------------------------------------------------
  // removeFace

  /**
    The face slots after removing face `dead` of `count`: the faces after it
    move down one slot and the old last face stays behind in its slot.
   */
  function Compacted(slots: seq<Face>, dead: nat, count: nat): seq<Face>
    requires dead < count <= |slots|
  {
    slots[..dead] + slots[dead + 1..count] + slots[count - 1..]
  }

  /**
    `removeFace(dead)`: faces before `dead` stay, face `i` becomes old face
    `i + 1` for `dead <= i < faceCount - 1`, the count drops by one, and nothing
    outside the face store changes.
   */
  method RemoveFace(a: Arena, deadFaceIndex: u16) returns (b: Arena)
    requires a.Valid() && deadFaceIndex < a.faces.count
    ensures b.Valid()
    ensures b == a.(faces := b.faces)
    ensures b.faces.count == a.faces.count - 1
    ensures b.faces.slots == Compacted(a.faces.slots, deadFaceIndex, a.faces.count)
    ensures forall i :: 0 <= i < deadFaceIndex ==> b.faces.slots[i] == a.faces.slots[i]
    ensures forall i :: deadFaceIndex <= i < a.faces.count - 1 ==> b.faces.slots[i] == a.faces.slots[i + 1]
    ensures a.FacesReferenceJoints() ==> b.FacesReferenceJoints()
  {
    var slots := a.faces.slots;
    var faceIndex: nat := deadFaceIndex;
    while faceIndex < a.faces.count - 1
      invariant deadFaceIndex <= faceIndex <= a.faces.count - 1
      invariant |slots| == |a.faces.slots|
      invariant forall i :: 0 <= i < deadFaceIndex ==> slots[i] == a.faces.slots[i]
      invariant forall i :: deadFaceIndex <= i < faceIndex ==> slots[i] == a.faces.slots[i + 1]
      invariant forall i :: faceIndex <= i < |slots| ==> slots[i] == a.faces.slots[i]
    {
      var nextFace := faceIndex + 1;
      slots := slots[faceIndex := Face(slots[nextFace].joint0, slots[nextFace].joint1, slots[nextFace].joint2)];
      faceIndex := faceIndex + 1;
    }
    b := a.(faces := Store(slots, a.faces.count - 1));
    assert slots == Compacted(a.faces.slots, deadFaceIndex, a.faces.count);
  }

  // ---------------------------------------------------------------------------
  // nextJointTag

  /** `nextJointTag`: increment the 16-bit tag counter and return its new value. */
  function NextJointTag(a: Arena): (r: (u16, Arena))
    ensures r.1 == a.(jointTagCount := r.0)
    ensures a.jointTagCount < 65535 ==> r.0 == a.jointTagCount + 1
    ensures a.jointTagCount == 65535 ==> r.0 == 0
  {
    var tag := Wrap16(a.jointTagCount + 1);
    (tag, a.(jointTagCount := tag))
  }

  /** `n` calls of `nextJointTag` in a row, with the tags they return. */
  function IssueTags(a: Arena, n: nat): (r: (seq<u16>, Arena))
    ensures |r.0| == n
    ensures r.1 == a.(jointTagCount := r.1.jointTagCount)
    decreases n
  {
    if n == 0 then ([], a)
    else
      var first := NextJointTag(a);
      var rest := IssueTags(first.1, n - 1);
      ([first.0] + rest.0, rest.1)
  }

  /**
    As long as the counter does not pass 65535, successive tags count up from
    the counter's value: they are nonzero, pairwise distinct, and never one
    handed out before.
   */
  lemma {:induction false} IssuedTagsFresh(a: Arena, n: nat)
    requires a.jointTagCount + n <= 65535
    ensures var r := IssueTags(a, n);
      && (forall k :: 0 <= k < n ==> r.0[k] == a.jointTagCount + k + 1)
      && (forall k, l :: 0 <= k < l < n ==> r.0[k] != r.0[l])
      && r.1.jointTagCount == a.jointTagCount + n
    decreases n
  {
    if n > 0 {
      var first := NextJointTag(a);
      IssuedTagsFresh(first.1, n - 1);
      var rest := IssueTags(first.1, n - 1);
      assert IssueTags(a, n).0 == [first.0] + rest.0;
    }
  }

  // ---------------------------------------------------------------------------
  // triggerInterval and the role setter

  /**
    `triggerInterval`: set the interval's time index to 1, starting its
    transition, and change nothing else.
   */
  function TriggerInterval(a: Arena, intervalIndex: u16): (b: Arena)
    requires a.Valid() && intervalIndex < a.intervals.count
    ensures b.Valid() && b == a.(intervals := b.intervals)
    ensures b.intervals.count == a.intervals.count && |b.intervals.slots| == |a.intervals.slots|
    ensures b.intervals.slots[intervalIndex].timeIndex == 1
    ensures b.intervals.slots[intervalIndex] == a.intervals.slots[intervalIndex].(timeIndex := b.intervals.slots[intervalIndex].timeIndex)
    ensures forall k :: 0 <= k < |a.intervals.slots| && k != intervalIndex ==> b.intervals.slots[k] == a.intervals.slots[k]
  {
    var iv := a.intervals.slots[intervalIndex];
    a.(intervals := a.intervals.(slots := a.intervals.slots[intervalIndex := iv.(timeIndex := 1)]))
  }

  /** `setIntervalRole`: change one interval's role and nothing else. */
  function SetIntervalRole(a: Arena, intervalIndex: u16, role: i8): (b: Arena)
    requires a.Valid() && intervalIndex < a.intervals.count
    ensures b.Valid() && b == a.(intervals := b.intervals)
    ensures b.intervals.count == a.intervals.count && |b.intervals.slots| == |a.intervals.slots|
    ensures b.intervals.slots[intervalIndex].role == role
    ensures b.intervals.slots[intervalIndex] == a.intervals.slots[intervalIndex].(role := b.intervals.slots[intervalIndex].role)
    ensures forall k :: 0 <= k < |a.intervals.slots| && k != intervalIndex ==> b.intervals.slots[k] == a.intervals.slots[k]
  {
    var iv := a.intervals.slots[intervalIndex];
    a.(intervals := a.intervals.(slots := a.intervals.slots[intervalIndex := iv.(role := role)]))
  }

  // ---------------------------------------------------------------------------
  // findOppositeIntervalIndex

  /** The first index from `k` on that is below `count` and differs from `skip`, else `none`. */
  function FirstOther(skip: nat, k: nat, count: nat, none: nat): nat {
    if k < count && k != skip then k
    else if k == skip && k + 1 < count then k + 1
    else none
  }

  /**
    The scan of `findOppositeIntervalIndex` as written: both "own" tags are read
    from the alpha joint, and both "this" tags are read from the queried interval
    rather than from `thisInterval`, so every comparison is true and the scan
    stops at the first interval other than the queried one.
   */
  function FindOppositeIntervalFromAsWritten(a: Arena, intervalIndex: u16, thisInterval: nat): (r: nat)
    requires a.Valid() && a.IntervalsReferenceJoints()
    requires intervalIndex < a.intervals.count && thisInterval <= a.intervals.count
    ensures r == FirstOther(intervalIndex, thisInterval, a.intervals.count, a.layout.intervalMax)
    decreases a.intervals.count - thisInterval
  {
    if thisInterval == a.intervals.count then a.layout.intervalMax
    else
      var iv := a.intervals.slots[intervalIndex];
      var tagAlpha := JointTag(a, iv.alpha);
      var tagOmega := JointTag(a, iv.alpha);
      var thisTagAlpha := JointTag(a, iv.alpha);
      var thisTagOmega := JointTag(a, iv.omega);
      var matchAlpha := tagAlpha == thisTagAlpha || tagAlpha == thisTagOmega;
      var matchOmega := tagOmega == thisTagOmega || tagOmega == thisTagAlpha;
      if thisInterval == intervalIndex || !(matchAlpha && matchOmega) then
        FindOppositeIntervalFromAsWritten(a, intervalIndex, thisInterval + 1)
      else thisInterval
  }

  /**
    `findOppositeIntervalIndex` as written: interval 0 unless it was asked about
    interval 0, then interval 1 if it exists, else the interval capacity;
    joint tags play no part.
   */
  function FindOppositeIntervalIndexAsWritten(a: Arena, intervalIndex: u16): (r: u16)
    requires a.Valid() && a.IntervalsReferenceJoints() && intervalIndex < a.intervals.count
    ensures intervalIndex != 0 ==> r == 0
    ensures intervalIndex == 0 ==> r == if a.intervals.count > 1 then 1 else a.layout.intervalMax
  {
    FindOppositeIntervalFromAsWritten(a, intervalIndex, 0)
  }

  /**
    The match test of `findOppositeIntervalIndex`: each endpoint tag of interval
    `i` occurs among interval `k`'s endpoint tags. This is containment, not
    equality of the tag pairs: `i` tagged (5, 5) matches `k` tagged (5, 7).
   */
  predicate EndpointTagsMatch(a: Arena, i: nat, k: nat)
    requires a.Valid() && a.IntervalsReferenceJoints() && i < a.intervals.count && k < a.intervals.count
  {
    var tagAlpha := JointTag(a, a.intervals.slots[i].alpha);
    var tagOmega := JointTag(a, a.intervals.slots[i].omega);
    var thisTagAlpha := JointTag(a, a.intervals.slots[k].alpha);
    var thisTagOmega := JointTag(a, a.intervals.slots[k].omega);
    && (tagAlpha == thisTagAlpha || tagAlpha == thisTagOmega)
    && (tagOmega == thisTagOmega || tagOmega == thisTagAlpha)
  }

  /**
    Joints tagged 1, 2, 3 and intervals 0 = (0, 1) and 1 = (1, 2): asked for the
    interval mirroring interval 1, the code as written answers interval 0,
    whose tags {1, 2} are not interval 1's tags {2, 3}.
   */
  lemma OppositeIntervalIgnoresTags(a: Arena)
    requires a.Valid() && a.IntervalsReferenceJoints() && a.intervals.count == 2 && a.joints.count == 3
    requires a.joints.slots[0].tag == 1 && a.joints.slots[1].tag == 2 && a.joints.slots[2].tag == 3
    requires a.intervals.slots[0].alpha == 0 && a.intervals.slots[0].omega == 1
    requires a.intervals.slots[1].alpha == 1 && a.intervals.slots[1].omega == 2
    ensures FindOppositeIntervalIndexAsWritten(a, 1) == 0
    ensures !EndpointTagsMatch(a, 1, 0)
  {
  }

  function FindOppositeIntervalFrom(a: Arena, intervalIndex: u16, thisInterval: nat): (r: nat)
    requires a.Valid() && a.IntervalsReferenceJoints()
    requires intervalIndex < a.intervals.count && thisInterval <= a.intervals.count
    ensures thisInterval <= r <= a.intervals.count
    ensures r < a.intervals.count ==> r != intervalIndex && EndpointTagsMatch(a, intervalIndex, r)
    ensures forall k :: thisInterval <= k < r && k != intervalIndex ==> !EndpointTagsMatch(a, intervalIndex, k)
    decreases a.intervals.count - thisInterval
  {
    if thisInterval == a.intervals.count then a.intervals.count
    else if thisInterval == intervalIndex then FindOppositeIntervalFrom(a, intervalIndex, thisInterval + 1)
    else if EndpointTagsMatch(a, intervalIndex, thisInterval) then thisInterval
    else FindOppositeIntervalFrom(a, intervalIndex, thisInterval + 1)
  }

  /**
    `findOppositeIntervalIndex` as intended: the lowest other live interval among
    whose endpoint tags each of the queried interval's endpoint tags occurs
    (`EndpointTagsMatch`), or the interval capacity when there is none.
   */
  function FindOppositeIntervalIndex(a: Arena, intervalIndex: u16): (r: u16)
    requires a.Valid() && a.IntervalsReferenceJoints() && intervalIndex < a.intervals.count
    ensures r == a.layout.intervalMax <==>
      forall k :: 0 <= k < a.intervals.count && k != intervalIndex ==> !EndpointTagsMatch(a, intervalIndex, k)
    ensures r != a.layout.intervalMax ==>
      && r < a.intervals.count && r != intervalIndex && EndpointTagsMatch(a, intervalIndex, r)
      && forall k :: 0 <= k < r && k != intervalIndex ==> !EndpointTagsMatch(a, intervalIndex, k)
  {
    var k := FindOppositeIntervalFrom(a, intervalIndex, 0);
    if k == a.intervals.count then a.layout.intervalMax else k
  }
}
